=== FILE: README.md ===
# vmnet-extcap, modelled in Dafny

vmnet-extcap is a Wireshark extcap plugin. It captures the Ethernet frames of
a VMware virtual network (VMnet 0..19) through VMware's `vmnetuserif` kernel
driver and publishes them as a pcapng stream. This project models three parts
of it.

- **The driver session** (`vmnet_user_interface.dfy`, module `VMNetExtcap`).
  - The `VNETUser_Request` wire struct and its once-per-process 0x2c-byte
    layout check.
  - The four-step handshake in `RequestVMnet`.
  - The wait-then-read capture primitive `CapturePacket`, and `Dispose`.
  - Every Win32 call is an outcome supplied by the caller. Each session records
    the calls it issues, in order, in a ghost log `Calls`.
- **The pcapng publisher** (`pcapng_publisher.dfy`, module `Pcapng`, with the
  value types in `packet_publish.dfy`).
  - The constructor builds the link-layer to interface-id map and the list of
    interface descriptions (section 4.2 of draft-ietf-opsawg-pcapng).
  - `Send` resolves the interface, splits the timestamp and appends one
    Enhanced Packet Block (section 4.3 of the same draft).
  - The writer is the append-only sequence `packets`.
- **The program** (`program.dfy`, module `Program`).
  - `VMWarePacketProducer` binds a VMnet, runs the capture loop over the reused
    0x640-byte buffer and disposes the session.
  - A registration loop declares one Ethernet capture interface per VMnet 0..19.
  - What the driver delivers and the elapsed time of each publish are a finite
    sequence of inputs.

The specification of each loop is a function on values:
- `CaptureLoop` for the capture loop;
- `PublishAll` for a run of `Send` calls;
- `InterfaceIds` and `Describe` for the constructor.

A few definitions carry no contract of their own and serve the rows below:
- `Program.CapturedPacket` is the Ethernet packet the producer builds from a
  frame (src/Program.cs:30-34);
- `VMNetExtcap.VMnetRequestWords` is the request prepared in `RequestVMnet`
  (src/VMnetUserInterface.cs:130-132);
- `VMNetExtcap.StepFailureMessage` gives the four handshake failure messages
  (src/VMnetUserInterface.cs:137, 141, 147 and 154).

The methods that run the loops are proved against those functions. Lemmas
relate the functions to independent reference definitions, to their inverses
or to their invariants.

Three behaviours of the code are easy to get wrong, and the model states them:
- The request struct is eleven 32-bit words, 0x2c = 44 bytes, and `PreCheck`
  demands exactly 0x2c.
- A link layer declared twice does not make construction fail. The dictionary
  keeps the last id assigned, and a description is added for each occurrence
  (`Pcapng.DuplicateDefaultOverwritten`).
- A second `Dispose` of a session is not a no-op. It throws
  `ObjectDisposedException("Dispose")` and changes nothing.

## Model

| member | source | states |
|---|---|---|
| VMNetExtcap.VNETUserRequest.Words | src/VMnetUserInterface.cs:23-34 | the struct is eleven 32-bit words, 0x2c bytes in all, in declaration order: version, request type, VMnet id, then the four `pvnSrc` and four `pvnDst` words |
| VMNetExtcap.VNETUserRequest.constructor | src/VMnetUserInterface.cs:36-44 | a new request has version 1, type Invalid, VMnet id 0xFFFFFFFF and all eight buffer words zero (loop invariant over the `for`) |
| VMNetExtcap.SizeOfRequest | src/VMnetUserInterface.cs:24-45 | the size of a default-built request's layout is exactly 0x2c bytes, the size `PreCheck` demands |
| VMNetExtcap.PreCheckState.constructor | src/VMnetUserInterface.cs:91 | the process starts with the pre-check not performed |
| VMNetExtcap.PreCheck | src/VMnetUserInterface.cs:92-104 | once the flag is set it succeeds without checking; otherwise a size other than 0x2c throws PreCheckFailureException and leaves the flag false, and a size of 0x2c succeeds and sets the flag |
| VMNetExtcap.NewVMnetUserInterface | src/VMnetUserInterface.cs:106-124 | a failed pre-check throws and opens no session; after the pre-check an invalid device handle throws Win32Exception; otherwise a fresh, undisposed session without an event whose only call so far is CreateFile |
| VMNetExtcap.VMnetUserInterface.Opened | src/VMnetUserInterface.cs:86-88 | a new session is not disposed, holds the device handle and no event handle |
| VMNetExtcap.HandshakeSteps | src/VMnetUserInterface.cs:126-155 | the four handshake calls in order: the VMnet request ioctl carrying a 0x2c-byte struct with version 1, type VMnet, the given id and zero buffers; the UNK1 ioctl with the word 9; CreateEvent; the give-event ioctl with the event handle |
| VMNetExtcap.StepsRun | src/VMnetUserInterface.cs:134-155 | the handshake runs 1 to 4 steps; every step before the last one run succeeded, and if fewer than four ran the last one failed |
| VMNetExtcap.HandshakeResult | src/VMnetUserInterface.cs:134-155 | the handshake succeeds exactly when all four steps succeed; a failure is the Win32Exception with the message of the last step run |
| VMNetExtcap.HandshakeEvent | src/VMnetUserInterface.cs:145-148 | the event handle exists exactly when CreateEvent has run; it is open, and invalid exactly when CreateEvent failed |
| VMNetExtcap.HandshakeStopsAtFirstFailure | src/VMnetUserInterface.cs:134-155 | step k is issued if and only if every earlier step succeeded |
| VMNetExtcap.VMnetUserInterface.RequestVMnet | src/VMnetUserInterface.cs:126-156 | returns the first failing step's Win32Exception or success; logs exactly the steps run, in order (request with type VMnet and the given id, flag word 9, CreateEvent, give event); the event handle is set once CreateEvent has run |
| VMNetExtcap.CaptureResult | src/VMnetUserInterface.cs:158-186 | 0 if and only if the wait timed out; a non-zero size if and only if signalled and read ok with a non-zero size; EndOfCapture if and only if a signalled read returned 0 bytes; Win32Exception if and only if the read failed; InvalidOperationException if and only if the wait result is neither timeout nor signal |
| VMNetExtcap.CaptureCalls | src/VMnetUserInterface.cs:158-186 | a capture waits once with the 33 ms timeout, reads exactly when signalled, and closes nothing |
| VMNetExtcap.VMnetUserInterface.CapturePacket | src/VMnetUserInterface.cs:158-186 | returns `CaptureResult`; issues a read only after a signal; a successful read places the frame at the start of the buffer and leaves the rest unchanged; handles and `disposed` are unchanged |
| VMNetExtcap.DisposeCalls | src/VMnetUserInterface.cs:193-200 | disposal closes the device first and exactly once, and closes the event exactly when it exists and is valid |
| VMNetExtcap.VMnetUserInterface.Dispose | src/VMnetUserInterface.cs:188-203 | a second call throws ObjectDisposedException and changes nothing; the first closes the device, closes the event only if it exists and is valid, logs exactly those closes and sets `disposed` |
| Pcapng.Milliseconds | ExtcapNet/PacketPublish/PcapngPublisher.cs:93 | `TimeSpan.Milliseconds` lies strictly between -1000 and 1000 and carries the sign of the span |
| Pcapng.AbsTotalSeconds | ExtcapNet/PacketPublish/PcapngPublisher.cs:93 | the whole seconds of the span's magnitude: the largest count of seconds not above it |
| Pcapng.MillisecondsMagnitude | ExtcapNet/PacketPublish/PcapngPublisher.cs:93 | with C# truncating division, the magnitude of `TimeSpan.Milliseconds` is the millisecond digit group of the span's magnitude |
| Pcapng.PacketTimestamp | ExtcapNet/PacketPublish/PcapngPublisher.cs:87-93 | a missing span counts as zero; microseconds are a multiple of 1000 below 1,000,000; seconds and microseconds recover the span's magnitude to within one millisecond |
| Pcapng.PacketTimestampSignSafe | ExtcapNet/PacketPublish/PcapngPublisher.cs:93 | a span and its negation get the same timestamp |
| Pcapng.LastIndex | ExtcapNet/PacketPublish/PcapngPublisher.cs:37-42 | the position of the last occurrence, or -1 exactly when absent: the dictionary's last-write-wins rule |
| Pcapng.InterfaceIds | ExtcapNet/PacketPublish/PcapngPublisher.cs:24-42 | the map's keys are exactly the declared link layers |
| Pcapng.InterfaceIdsLastWins | ExtcapNet/PacketPublish/PcapngPublisher.cs:29-42 | a declared link layer maps to the position of its last declaration, which names that link layer |
| Pcapng.Describe | ExtcapNet/PacketPublish/PcapngPublisher.cs:30-40 | one description per declared link layer, in declaration order, each with that link type and snap length 0 |
| Pcapng.InterfaceIdsAppendOther | ExtcapNet/PacketPublish/PcapngPublisher.cs:39 | proof step for `InterfaceIdsAppend`: declaring one more link layer leaves the entry of every other link layer as it was |
| Pcapng.InterfaceIdsAppend | ExtcapNet/PacketPublish/PcapngPublisher.cs:37-42 | declaring one more link layer maps it to the next id and leaves every other entry alone |
| Pcapng.DeclareNext | ExtcapNet/PacketPublish/PcapngPublisher.cs:37-42 | proof step for the constructor's loop: one more declaration extends the map by the next id and the descriptions by one entry |
| Pcapng.DefaultLinkLayerId | ExtcapNet/PacketPublish/PcapngPublisher.cs:24-31 | the default link layer is mapped, to 0 exactly when it is not declared again |
| Pcapng.AdditionalLinkLayerId | ExtcapNet/PacketPublish/PcapngPublisher.cs:37-42 | the i-th additional link layer, if not declared again later, gets id i+1 |
| Pcapng.InterfaceIdsDescribe | ExtcapNet/PacketPublish/PcapngPublisher.cs:18-48 | the map's keys are the declared link layers, and each id names a description of its own link layer |
| Pcapng.DuplicateDefaultOverwritten | ExtcapNet/PacketPublish/PcapngPublisher.cs:28-42 | with default Ethernet and additional [Raw, Ethernet], Ethernet maps to 2, Raw to 1, and there are three descriptions |
| Pcapng.CommentsList | ExtcapNet/PacketPublish/PcapngPublisher.cs:52-54 | the comments list is empty exactly when there is no comment, and otherwise holds that comment alone |
| Pcapng.ResolveInterfaceId | ExtcapNet/PacketPublish/PcapngPublisher.cs:79-86 | no link layer resolves to the default id, a mapped one to its id; an unmapped one throws ArgumentOutOfRangeException carrying that link layer, and nothing else throws |
| Pcapng.ResolveAgainstDeclarations | ExtcapNet/PacketPublish/PcapngPublisher.cs:79-86 | a packet resolves if and only if it names no link layer or a declared one, and then to a description of that link layer; otherwise ArgumentOutOfRangeException carrying that link layer |
| Pcapng.SendRecord | ExtcapNet/PacketPublish/PcapngPublisher.cs:77-94 | `Send` writes a block exactly when the interface resolves, else throws the resolution's exception; the block has the resolved interface, the packet's timestamp, bytes, length and comment |
| Pcapng.PublishAll | ExtcapNet/PacketPublish/PcapngPublisher.cs:77-94 | a run of `Send` calls writes at most one block per packet, and exactly one per packet when it succeeds |
| Pcapng.PublishAllAppend | ExtcapNet/PacketPublish/PcapngPublisher.cs:77-94 | proof step for the loops over `Send`: one more call after a run adds nothing once the run has thrown, and otherwise adds that packet's block or its exception |
| Pcapng.PublishAllInCallOrder | ExtcapNet/PacketPublish/PcapngPublisher.cs:77-94 | when every link layer is known, the n-th block written belongs to the n-th packet: its interface, its bytes and its length |
| Pcapng.PcapngPublisher.constructor | ExtcapNet/PacketPublish/PcapngPublisher.cs:18-48 | the default id is 0, the map is `InterfaceIds` of the declarations (loop invariant over the `foreach`), one description per declared link layer in order, and nothing written |
| Pcapng.PcapngPublisher.SendImpl | ExtcapNet/PacketPublish/PcapngPublisher.cs:50-57 | appends exactly one block with the given interface and timestamp, the data's length and bytes, and the comment as its only comment, or none |
| Pcapng.PcapngPublisher.Send | ExtcapNet/PacketPublish/PcapngPublisher.cs:77-94 | an unknown link layer throws ArgumentOutOfRangeException and writes nothing; otherwise exactly one block tagged with the resolved interface and the packet's timestamp is appended |
| Pcapng.PcapngPublisher.SendData | ExtcapNet/PacketPublish/PcapngPublisher.cs:59-65 | never throws and appends one block on the default interface at time zero without comments |
| Pcapng.PcapngPublisher.SendDataOnLinkLayer | ExtcapNet/PacketPublish/PcapngPublisher.cs:68-75 | appends one block on that link layer's interface at time zero, or throws ArgumentOutOfRangeException and writes nothing when the link layer is unknown |
| Pcapng.TwoLinkLayerIds | ExtcapNet/PacketPublish/PcapngPublisher.cs:24-42 | default Ethernet plus Raw map to interfaces 0 and 1 and nothing else |
| Pcapng.TwoLinkLayerScenario | ExtcapNet/PacketPublish/PcapngPublisher.cs:18-94 | default Ethernet plus Raw: an untagged packet goes to interface 0 and a Raw one to interface 1, in call order |
| Program.CaptureLoop | src/Program.cs:18-35 | every packet the loop publishes is Ethernet-tagged, non-empty, at most 0x640 bytes, uncommented and timestamped; at most one per input |
| Program.FirstThrow | src/Program.cs:19-23 | the position of the first capture that throws: every earlier capture returns normally |
| Program.CaptureLoopForwardsFramesBeforeFirstThrow | src/Program.cs:17-35 | the loop publishes exactly the non-empty frames delivered before the first exception, one packet each, in order; it ends on end-of-capture, fails with any other exception, or runs out of inputs |
| Program.ConsumedInputs | src/Program.cs:18-35 | the loop consumes at most every input, and at least one when there is one |
| Program.ConsumedUpToFirstThrow | src/Program.cs:19-23 | when `Send` never throws, the loop consumes every input up to and including the first capture that throws, or all of them |
| Program.ConsumedUpToFirstStop | src/Program.cs:18-35 | whether or not `Send` throws, the loop consumes the inputs up to and including the first one where a capture throws or a frame meets a throwing `Send`, and all of them when there is none |
| Program.ConsumedInputsStep | src/Program.cs:19-34 | proof step for the loop: an input ends the consumption when its capture throws or a frame meets a throwing `Send`, and otherwise one more input follows |
| Program.CaptureCallsOfShape | src/Program.cs:20 | the captures of n inputs issue at least n calls, and every one is a wait or a read |
| Program.CaptureCallsOfStep | src/Program.cs:20 | proof step for the loop: one more input adds exactly the calls of its own capture |
| Program.TimeoutsThenOneFrame | src/Program.cs:27-34 | five timed-out waits then one frame publish exactly that frame |
| Program.CaptureLoopStep | src/Program.cs:18-35 | proof step: one capture ends the loop, is skipped or prepends its packet to the rest of the run |
| Program.RunSoFarStep | src/Program.cs:18-35 | proof step: the same step, seen from the packets sent so far |
| Program.RunSoFarExhausted | src/Program.cs:18-35 | proof step: once every input is used the run ends for want of inputs with the packets sent so far |
| Program.PublishAllStopsAtFirstThrow | src/Program.cs:30-34 | once a `Send` has thrown, later packets change neither what is written nor the result |
| Program.PublishStep | src/Program.cs:30-34 | proof step: a `Send` after a successful run writes and returns what one more packet adds to the run |
| Program.LoopStart | src/Program.cs:17-18 | proof step: before the first turn nothing is sent and every consumed input is still ahead |
| Program.LoopSkips | src/Program.cs:27-28 | proof step: a timed-out wait sends nothing and moves on to the next input |
| Program.LoopStopsOnCapture | src/Program.cs:19-23 | proof step: a capture that throws ends the loop having consumed that input; end-of-capture is a normal return and any other exception escapes |
| Program.LoopPublishes | src/Program.cs:30-34 | proof step: a frame is sent and written; a throwing `Send` ends the loop with that exception, having consumed that input |
| Program.LoopExhausted | src/Program.cs:18-35 | proof step: when the inputs run out the producer is still capturing with every input consumed |
| Program.ProducerResult | src/Program.cs:19-23 | a `Send` exception ends the producer with that exception; otherwise end-of-capture is a normal return, any other capture exception escapes, and running out of inputs leaves it still capturing |
| Program.HandshakeThenCapturesAppend | src/Program.cs:12-20 | appending only capture and dispose calls keeps the log's handshake prefix |
| Program.HandshakeLog | src/Program.cs:12-15 | right after `RequestVMnet` the log is CreateFile and then the handshake steps run, and nothing is closed |
| Program.CapturesKeepLog | src/Program.cs:18-35 | any run of captures keeps the log's shape and leaves the counts of device closes and of event closes unchanged |
| Program.CapturesCloseNothing | src/VMnetUserInterface.cs:158-186 | a run of captures closes neither the device nor the event |
| Program.DisposeKeepsLog | src/Program.cs:12 | disposal keeps the log's shape and closes the device exactly once |
| Program.CapturedLogShape | src/Program.cs:12-35 | before disposal the log is CreateFile and the handshake steps run, followed only by capture and dispose calls, and neither the device nor the event has been closed |
| Program.SessionLogShape | src/Program.cs:12-35 | the producer's log starts with the handshake and closes the device exactly once if the producer returned, and never otherwise |
| Program.FinalEvent | src/VMnetUserInterface.cs:193-200 | the event left behind exists exactly when the handshake created one; it is invalid exactly when CreateEvent failed, and closed exactly when the producer returned and the event is valid |
| Program.CaptureStep | src/Program.cs:19-34 | one turn: the capture's result; the log grows by exactly that capture's calls; both handles are unchanged; the buffer gets the frame at its start after a successful read and is otherwise unchanged; a non-empty frame is sent once as Ethernet with the elapsed time |
| Program.CaptureAndPublish | src/Program.cs:18-35 | the publisher gets exactly the blocks `PublishAll` writes for `CaptureLoop`'s packets; the outcome is `ProducerResult` of both; the log grows by exactly the capture calls of the inputs consumed; the session stays open and both handles are unchanged |
| Program.RunSession | src/Program.cs:12-35 | after the device opens: a failed handshake writes nothing and throws its exception; otherwise the writes and outcome of `CaptureAndPublish`; the log is exactly CreateFile, the handshake steps run, the captures of the consumed inputs if the handshake succeeded, then the disposal calls if and only if the producer returned; the session is disposed exactly then, and then the device handle is closed and a valid event is closed (`FinalEvent`), otherwise both are as the handshake left them |
| Program.VMWarePacketProducer | src/Program.cs:10-36 | no session if the device does not open; a failed handshake writes nothing, captures nothing, disposes and throws; otherwise the writes and outcome of `CaptureAndPublish`; the log is exactly as for `RunSession`, so `RequestVMnet` runs once before any capture; a producer that returned has disposed the session, closing the device exactly once; the device handle is valid and closed exactly when the producer returned, and the event is `FinalEvent` |
| Program.DecimalString | src/Program.cs:43 | the decimal form of a number is a non-empty string of digits that starts with 0 only for 0 |
| Program.DecimalRoundTrip | src/Program.cs:43 | reading back the decimal digits of a number gives the number |
| Program.VMnetDisplayName | src/Program.cs:43 | the name is "VMware VMnet" followed by decimal digits that read back as the id |
| Program.VMnetDisplayNamesDistinct | src/Program.cs:43 | distinct VMnet ids get distinct display names |
| Program.RegisterVMnetInterfaces | src/Program.cs:41-52 | exactly 20 interfaces; entry id is named "VMware VMnet" plus id, defaults to Ethernet and binds VMnet id; all names distinct |

## Left out

- Win32 calls (CreateFile, DeviceIoControl, CreateEvent, WaitForSingleObject, ReadFile, SafeHandle.Close) are OS I/O. Each is an outcome given as a parameter, and the session records it in its ghost `Calls` log.
- `Marshal.SizeOf<VNETUser_Request>()` is not computed by the runtime. `VMNetExtcap.SizeOfRequest` takes it from the modelled layout, and `PreCheck` takes the size as a parameter.
- The static `PreCheckPerformed` flag is a `PreCheckState` object, passed to whoever constructs a session.
- The `PVN` request type is declared but never sent, so nothing models its use.
- `IPacketsPublisher` is not modelled as an abstract type. It only declares the three `Send` overloads. The producer is written against `PcapngPublisher`, which has all three.
- `PcapngPublisher.Dispose` is not modelled. It only disposes the external writer.
- The Haukcode pcapng library's byte encoding, the output stream and the section header are not modelled. The writer is the sequence of interface descriptions it receives and of packet blocks written to it.
- The `ArgumentOutOfRangeException` message text is not modelled. The exception carries the unknown link layer's numeric value instead.
- Pcapng.PcapngPublisher.Send: requires that the seconds of the span fit in 32 bits. It does not model the unchecked `uint` cast for larger spans, or the double rounding of `TimeSpan.TotalSeconds`. Seconds are taken as the integer quotient of the tick count.
- Pcapng.PacketTimestamp: carries the same 32-bit requirement on the seconds.
- Program.VMWarePacketProducer: the `while (true)` loop runs over a finite sequence of inputs. When they run out, the producer ends as `StillCapturing`. It has not returned and has not disposed the session, which stands for the process being stopped from outside while the loop waits. `DateTime.Now` is replaced by an elapsed time per input.
- Program.VMWarePacketProducer: every frame must fit the 0x640-byte buffer and every elapsed time must fit the 32-bit seconds field. ReadFile never writes beyond the buffer it is given.
- Program.VMWarePacketProducer: the unused `config` parameter is dropped.
- VMNetExtcap.VMnetUserInterface.CapturePacket: requires the frame to fit the buffer, as ReadFile guarantees.
- VMNetExtcap.VMnetUserInterface.CapturePacket: use after `Dispose` or before `RequestVMnet` is not modelled. The code would then wait on a closed or null event handle, which the runtime rejects; the model takes the wait's outcome as given. The producer never calls it so.
- VMNetExtcap.VMnetUserInterface.RequestVMnet: use after `Dispose` is not modelled. The code would then issue ioctls on a closed device handle, which the runtime rejects; the model takes each step's outcome as given. The producer calls it once, on a fresh session.
- The extcap framework (`ExtcapManager`, `BasicCaptureInterface`, `RegisterInterface`, `Run(args)`) is not part of this model. Registration is the list of (display name, VMnet id, default link layer) it would receive. The producer closure is the VMnet id it binds.
- A session whose device fails to open is never returned. Its invalid handle is left to the runtime's finalizer, which is not modelled.

=== FILE: packet_publish.dfy ===
/**
 * The values a capture producer hands to a packets publisher: link-layer
 * types, time spans and `PacketToSend`.
 */
module PacketPublish {
  import opened Types

  /**
   * A link-layer type, by its numeric value. The publisher casts it unchanged
   * to the capture container's link type, so the values are those of the pcap
   * LINKTYPE registry.
   */
  datatype LinkLayerType = LinkLayerType(code: nat)

  /** LINKTYPE_ETHERNET. */
  const Ethernet := LinkLayerType(1)

  /** LINKTYPE_RAW. */
  const Raw := LinkLayerType(101)

  /** A .NET `TimeSpan`, as its signed count of 100-nanosecond ticks. */
  type TimeSpan = int

  const TicksPerMillisecond: nat := 10_000
  const TicksPerSecond: nat := 10_000_000

  /** `PacketToSend`: the packet bytes, an optional link layer, an optional time since capture start, an optional comment. */
  datatype PacketToSend = PacketToSend(
    data: seq<byte>,
    linkLayer: Option<LinkLayerType>,
    timeFromCaptureStart: Option<TimeSpan>,
    comment: Option<string>)
}

=== FILE: pcapng_publisher.dfy ===
/**
 * The pcapng packets publisher. Each declared link layer becomes an interface
 * of the capture file (an Interface Description Block, section 4.2 of
 * draft-ietf-opsawg-pcapng); each sent packet becomes an Enhanced Packet Block
 * (section 4.3 of the same draft) that names the interface of its link layer.
 * The writer is modelled as the list of interface descriptions it was given
 * and the append-only list of packet blocks written to it.
 */
module Pcapng {
  import opened Types
  import opened PacketPublish

  // ---------------------------------------------------------------------------
  // Timestamps

  function Abs(x: int): nat {
    if x < 0 then -x else x
  }

  /** C#'s integer division, which truncates toward zero. */
  function TruncDiv(a: int, b: nat): int
    requires b > 0
  {
    if a >= 0 then a / b else -((-a) / b)
  }

  /** C#'s `%`, whose result takes the sign of the dividend. */
  function TruncRem(a: int, b: nat): int
    requires b > 0
  {
    a - TruncDiv(a, b) * b
  }

  /** `TimeSpan.Milliseconds`: the millisecond component, carrying the sign of the span. */
  function Milliseconds(t: TimeSpan): (ms: int)
    ensures -1000 < ms < 1000
    ensures t >= 0 ==> ms >= 0
    ensures t <= 0 ==> ms <= 0
  {
    TruncRem(TruncDiv(t, TicksPerMillisecond), 1000)
  }

  /** `(uint)Math.Abs(ts.TotalSeconds)`: the whole seconds of the span's magnitude. */
  function AbsTotalSeconds(t: TimeSpan): (seconds: nat)
    ensures seconds * TicksPerSecond <= Abs(t) < (seconds + 1) * TicksPerSecond
  {
    Abs(t) / TicksPerSecond
  }

  /** The millisecond component's magnitude is the milliseconds digit group of the span's magnitude. */
  lemma MillisecondsMagnitude(t: TimeSpan)
    ensures Abs(Milliseconds(t)) == (Abs(t) / TicksPerMillisecond) % 1000
  {
    var q := Abs(t) / TicksPerMillisecond;
    if t >= 0 {
      assert TruncDiv(t, TicksPerMillisecond) == q;
    } else {
      assert TruncDiv(t, TicksPerMillisecond) == -q;
      if q > 0 {
        assert TruncDiv(-q, 1000) == -(q / 1000);
        assert Milliseconds(t) == -(q % 1000);
      }
    }
  }

  /** The Haukcode `TimestampHelper`: whole seconds and microseconds. */
  datatype TimestampHelper = TimestampHelper(seconds: uint32, microseconds: uint32)

  /** The seconds of the span (zero when absent) fit the `uint` the source casts them to. */
  predicate TimestampFits(ts: Option<TimeSpan>) {
    AbsTotalSeconds(ts.GetOr(0)) < 0x1_0000_0000
  }

  /**
   * The timestamp `Send` gives a packet: a missing span counts as zero; the
   * seconds and the milliseconds component are taken by magnitude.
   */
  function PacketTimestamp(ts: Option<TimeSpan>): (r: TimestampHelper)
    requires TimestampFits(ts)
    ensures r.microseconds % 1000 == 0 && r.microseconds < 1_000_000
    ensures r.seconds * TicksPerSecond + r.microseconds * 10 <= Abs(ts.GetOr(0))
              < r.seconds * TicksPerSecond + r.microseconds * 10 + TicksPerMillisecond
  {
    var t := ts.GetOr(0);
    MillisecondsMagnitude(t);
    var a := Abs(t);
    assert a / TicksPerMillisecond / 1000 == a / TicksPerSecond;
    TimestampHelper(AbsTotalSeconds(t), Abs(Milliseconds(t)) * 1000)
  }

  /** Negative spans are never encoded: a span and its negation give the same timestamp. */
  lemma PacketTimestampSignSafe(t: TimeSpan)
    requires TimestampFits(Some(t))
    ensures TimestampFits(Some(-t))
    ensures PacketTimestamp(Some(-t)) == PacketTimestamp(Some(t))
  {
    MillisecondsMagnitude(t);
    MillisecondsMagnitude(-t);
  }

  // ---------------------------------------------------------------------------
  // The link-layer to interface-id map

  /** The link layers in declaration order: the default first, then the additional ones. */
  function DeclaredLinkLayers(defaultLinkLayer: LinkLayerType, additional: seq<LinkLayerType>): seq<LinkLayerType> {
    [defaultLinkLayer] + additional
  }

  /** Position of the last occurrence of `x` in `s`, or -1. */
  function LastIndex(s: seq<LinkLayerType>, x: LinkLayerType): (i: int)
    ensures -1 <= i < |s|
    ensures i == -1 <==> x !in s
    ensures 0 <= i ==> s[i] == x && forall j :: i < j < |s| ==> s[j] != x
    decreases |s|
  {
    if s == [] then -1
    else if s[|s| - 1] == x then |s| - 1
    else
      assert s == s[..|s| - 1] + [s[|s| - 1]];
      LastIndex(s[..|s| - 1], x)
  }

  /**
   * The map the constructor builds: every declared link layer, to the last
   * interface id assigned to it (a later duplicate overwrites an earlier one).
   */
  function InterfaceIds(defaultLinkLayer: LinkLayerType, additional: seq<LinkLayerType>): (ids: map<LinkLayerType, nat>)
    ensures forall ll :: ll in ids <==> ll in DeclaredLinkLayers(defaultLinkLayer, additional)
  {
    var declared := DeclaredLinkLayers(defaultLinkLayer, additional);
    map ll | ll in declared :: LastIndex(declared, ll)
  }

  /** The id of a declared link layer is the position of its last declaration. */
  lemma InterfaceIdsLastWins(defaultLinkLayer: LinkLayerType, additional: seq<LinkLayerType>, ll: LinkLayerType)
    requires ll in DeclaredLinkLayers(defaultLinkLayer, additional)
    ensures var declared, ids := DeclaredLinkLayers(defaultLinkLayer, additional), InterfaceIds(defaultLinkLayer, additional);
            && ll in ids && ids[ll] < |declared| && declared[ids[ll]] == ll
            && forall j :: ids[ll] < j < |declared| ==> declared[j] != ll
  {
  }

  /** One interface description per declared link layer, in declaration order, with snap length 0. */
  function Describe(linkLayers: seq<LinkLayerType>): (r: seq<InterfaceDescription>)
    ensures |r| == |linkLayers|
    ensures forall i :: 0 <= i < |r| ==> r[i].linkType == linkLayers[i] && r[i].snapLen == 0
  {
    seq(|linkLayers|, i requires 0 <= i < |linkLayers| => InterfaceDescription(linkLayers[i], 0))
  }

  /** An Interface Description Block: its link type and snap length. */
  datatype InterfaceDescription = InterfaceDescription(linkType: LinkLayerType, snapLen: nat)

  /** Declaring one more link layer `x` leaves the entry of every other link layer alone. */
  lemma InterfaceIdsAppendOther(d: LinkLayerType, s: seq<LinkLayerType>, x: LinkLayerType, ll: LinkLayerType)
    requires ll != x
    ensures ll in InterfaceIds(d, s + [x]) <==> ll in InterfaceIds(d, s)
    ensures ll in InterfaceIds(d, s) ==> InterfaceIds(d, s + [x])[ll] == InterfaceIds(d, s)[ll]
  {
    var before := DeclaredLinkLayers(d, s);
    var after := DeclaredLinkLayers(d, s + [x]);
    assert after == before + [x];
    assert after[..|after| - 1] == before;
    if ll in after {
      assert LastIndex(after, ll) == LastIndex(before, ll);
    }
  }

  /** Declaring one more link layer assigns it the next id and leaves the other entries alone. */
  lemma {:induction false} InterfaceIdsAppend(d: LinkLayerType, s: seq<LinkLayerType>, x: LinkLayerType)
    ensures InterfaceIds(d, s + [x]) == InterfaceIds(d, s)[x := |s| + 1]
  {
    var after := DeclaredLinkLayers(d, s + [x]);
    assert after[|s| + 1] == x;
    var m, m' := InterfaceIds(d, s), InterfaceIds(d, s + [x]);
    forall ll
      ensures ll in m' <==> ll in m[x := |s| + 1]
      ensures ll in m' ==> m'[ll] == m[x := |s| + 1][ll]
    {
      if ll != x {
        InterfaceIdsAppendOther(d, s, x, ll);
      }
    }
  }

  /**
   * The default link layer is in the map, and its id is 0 exactly when it is
   * not declared again among the additional link layers.
   */
  lemma DefaultLinkLayerId(d: LinkLayerType, additional: seq<LinkLayerType>)
    ensures d in InterfaceIds(d, additional)
    ensures InterfaceIds(d, additional)[d] == 0 <==> d !in additional
  {
    var declared := DeclaredLinkLayers(d, additional);
    assert declared[0] == d;
    var i := LastIndex(declared, d);
    if d in additional {
      var k :| 0 <= k < |additional| && additional[k] == d;
      assert declared[k + 1] == d;
    }
  }

  /**
   * An additional link layer that is not declared again later gets id i + 1,
   * where i is its position among the additional link layers.
   */
  lemma AdditionalLinkLayerId(d: LinkLayerType, additional: seq<LinkLayerType>, i: nat)
    requires i < |additional|
    requires forall j :: i < j < |additional| ==> additional[j] != additional[i]
    ensures InterfaceIds(d, additional)[additional[i]] == i + 1
  {
    var declared := DeclaredLinkLayers(d, additional);
    var x := additional[i];
    assert declared[i + 1] == x;
  }

  /** Proof step of the constructor's loop: declaring `additional[k]` extends the map and the descriptions by one. */
  lemma DeclareNext(d: LinkLayerType, additional: seq<LinkLayerType>, k: nat)
    requires k < |additional|
    ensures InterfaceIds(d, additional[..k + 1]) == InterfaceIds(d, additional[..k])[additional[k] := k + 1]
    ensures Describe(DeclaredLinkLayers(d, additional[..k + 1])) ==
            Describe(DeclaredLinkLayers(d, additional[..k])) + [InterfaceDescription(additional[k], 0)]
  {
    assert additional[..k + 1] == additional[..k] + [additional[k]];
    InterfaceIdsAppend(d, additional[..k], additional[k]);
    assert DeclaredLinkLayers(d, additional[..k + 1]) == DeclaredLinkLayers(d, additional[..k]) + [additional[k]];
  }

  /**
   * The map is consistent with the interface descriptions: its keys are the
   * declared link layers, and each id names a description of that link layer.
   */
  lemma InterfaceIdsDescribe(d: LinkLayerType, additional: seq<LinkLayerType>)
    ensures forall ll :: ll in InterfaceIds(d, additional) <==> ll in DeclaredLinkLayers(d, additional)
    ensures forall ll :: ll in InterfaceIds(d, additional) ==>
              InterfaceIds(d, additional)[ll] < |Describe(DeclaredLinkLayers(d, additional))| &&
              Describe(DeclaredLinkLayers(d, additional))[InterfaceIds(d, additional)[ll]].linkType == ll
  {
  }

  /** Duplicates are not rejected: a repeated default keeps only its last id, yet gets a second description. */
  lemma DuplicateDefaultOverwritten()
    ensures InterfaceIds(Ethernet, [Raw, Ethernet]).Keys == {Ethernet, Raw}
    ensures InterfaceIds(Ethernet, [Raw, Ethernet])[Ethernet] == 2
    ensures InterfaceIds(Ethernet, [Raw, Ethernet])[Raw] == 1
    ensures |Describe(DeclaredLinkLayers(Ethernet, [Raw, Ethernet]))| == 3
  {
    var declared := DeclaredLinkLayers(Ethernet, [Raw, Ethernet]);
    assert declared == [Ethernet, Raw, Ethernet];
    assert declared[1] == Raw && declared[2] == Ethernet;
  }

  // ---------------------------------------------------------------------------
  // Sending

  /** An Enhanced Packet Block: interface id, timestamp, captured length, bytes and comment options. */
  datatype EnhancedPacket = EnhancedPacket(
    interfaceId: nat,
    timestamp: TimestampHelper,
    packetLength: nat,
    data: seq<byte>,
    comments: seq<string>)

  /** The comment options of a packet: the comment alone, or none at all. */
  function CommentsList(comment: Option<string>): (comments: seq<string>)
    ensures |comments| <= 1
    ensures comments == [] <==> comment.None?
    ensures forall c :: c in comments ==> comment == Some(c)
  {
    if comment.Some? then [comment.value] else []
  }

  /** The interface a packet is sent on: the default one when it names no link layer. */
  function ResolveInterfaceId(ids: map<LinkLayerType, nat>, defaultId: nat, linkLayer: Option<LinkLayerType>): (r: Result<nat>)
    ensures r.Ok? <==> linkLayer.None? || linkLayer.value in ids
    ensures linkLayer.None? ==> r == Ok(defaultId)
    ensures linkLayer.Some? && linkLayer.value in ids ==> r == Ok(ids[linkLayer.value])
    ensures r.Throw? ==> r.exception == ArgumentOutOfRangeException(linkLayer.value.code)
  {
    match linkLayer
    case None => Ok(defaultId)
    case Some(ll) => if ll in ids then Ok(ids[ll]) else Throw(ArgumentOutOfRangeException(ll.code))
  }

  /**
   * Against a freshly built map, a packet resolves exactly when it names no
   * link layer or a declared one, and then to an interface described with
   * that link layer (the default one when none is named).
   */
  lemma ResolveAgainstDeclarations(d: LinkLayerType, additional: seq<LinkLayerType>, linkLayer: Option<LinkLayerType>)
    ensures ResolveInterfaceId(InterfaceIds(d, additional), 0, linkLayer).Ok? <==>
              linkLayer.None? || linkLayer.value in DeclaredLinkLayers(d, additional)
    ensures ResolveInterfaceId(InterfaceIds(d, additional), 0, linkLayer).Throw? ==>
              ResolveInterfaceId(InterfaceIds(d, additional), 0, linkLayer).exception ==
                ArgumentOutOfRangeException(linkLayer.value.code)
    ensures ResolveInterfaceId(InterfaceIds(d, additional), 0, linkLayer).Ok? ==>
              var id := ResolveInterfaceId(InterfaceIds(d, additional), 0, linkLayer).value;
              id < |Describe(DeclaredLinkLayers(d, additional))| &&
              Describe(DeclaredLinkLayers(d, additional))[id].linkType == linkLayer.GetOr(d)
  {
    InterfaceIdsDescribe(d, additional);
  }

  /** The block `Send` writes for `pkt`, or the exception it throws. */
  function SendRecord(ids: map<LinkLayerType, nat>, defaultId: nat, pkt: PacketToSend): (r: Result<EnhancedPacket>)
    requires TimestampFits(pkt.timeFromCaptureStart)
    ensures r.Ok? <==> ResolveInterfaceId(ids, defaultId, pkt.linkLayer).Ok?
    ensures r.Throw? ==> r.exception == ArgumentOutOfRangeException(pkt.linkLayer.value.code)
    ensures r.Ok? ==>
              && r.value.interfaceId == ResolveInterfaceId(ids, defaultId, pkt.linkLayer).value
              && r.value.data == pkt.data && r.value.packetLength == |pkt.data|
              && r.value.timestamp == PacketTimestamp(pkt.timeFromCaptureStart)
              && r.value.comments == CommentsList(pkt.comment)
  {
    match ResolveInterfaceId(ids, defaultId, pkt.linkLayer)
    case Throw(e) => Throw(e)
    case Ok(id) =>
      Ok(EnhancedPacket(id, PacketTimestamp(pkt.timeFromCaptureStart), |pkt.data|, pkt.data, CommentsList(pkt.comment)))
  }

  /** What a run of `Send` calls writes, and how it ends: the first exception stops the run. */
  datatype PublishRun = PublishRun(packets: seq<EnhancedPacket>, result: Result<()>)

  predicate AllTimestampsFit(pkts: seq<PacketToSend>) {
    forall i :: 0 <= i < |pkts| ==> TimestampFits(pkts[i].timeFromCaptureStart)
  }

  function PublishAll(ids: map<LinkLayerType, nat>, defaultId: nat, pkts: seq<PacketToSend>): (run: PublishRun)
    requires AllTimestampsFit(pkts)
    ensures |run.packets| <= |pkts|
    ensures run.result.Ok? ==> |run.packets| == |pkts|
    decreases |pkts|
  {
    if pkts == [] then PublishRun([], Ok(()))
    else
      var prev := PublishAll(ids, defaultId, pkts[..|pkts| - 1]);
      if prev.result.Throw? then prev
      else match SendRecord(ids, defaultId, pkts[|pkts| - 1])
        case Ok(rec) => PublishRun(prev.packets + [rec], Ok(()))
        case Throw(e) => PublishRun(prev.packets, Throw(e))
  }

  /** One more `Send` after a run: nothing once the run has thrown, otherwise that packet's block or exception. */
  lemma PublishAllAppend(ids: map<LinkLayerType, nat>, defaultId: nat, pkts: seq<PacketToSend>, pkt: PacketToSend)
    requires AllTimestampsFit(pkts) && TimestampFits(pkt.timeFromCaptureStart)
    ensures AllTimestampsFit(pkts + [pkt])
    ensures var prev, now := PublishAll(ids, defaultId, pkts), PublishAll(ids, defaultId, pkts + [pkt]);
            now == if prev.result.Throw? then prev
                   else match SendRecord(ids, defaultId, pkt)
                     case Ok(rec) => PublishRun(prev.packets + [rec], Ok(()))
                     case Throw(e) => PublishRun(prev.packets, Throw(e))
  {
    assert (pkts + [pkt])[..|pkts|] == pkts;
  }

  /**
   * When every packet's link layer is known, each call writes one block, in
   * call order: the n-th block is tagged with the interface of the n-th
   * packet's link layer and carries that packet's bytes and length.
   */
  lemma {:induction false} PublishAllInCallOrder(ids: map<LinkLayerType, nat>, defaultId: nat, pkts: seq<PacketToSend>)
    requires AllTimestampsFit(pkts)
    requires forall i :: 0 <= i < |pkts| ==> pkts[i].linkLayer.None? || pkts[i].linkLayer.value in ids
    ensures PublishAll(ids, defaultId, pkts).result == Ok(())
    ensures |PublishAll(ids, defaultId, pkts).packets| == |pkts|
    ensures forall i :: 0 <= i < |pkts| ==>
              var p := PublishAll(ids, defaultId, pkts).packets[i];
              ResolveInterfaceId(ids, defaultId, pkts[i].linkLayer) == Ok(p.interfaceId) &&
              p.data == pkts[i].data && p.packetLength == |pkts[i].data|
  {
    if pkts != [] {
      PublishAllInCallOrder(ids, defaultId, pkts[..|pkts| - 1]);
    }
  }

  /** `PcapngPublisher`. */
  class PcapngPublisher {
    const defaultInterfaceId: nat
    const linkLayerToIfaceId: map<LinkLayerType, nat>
    /** The interface descriptions given to the writer with the section header. */
    const interfaces: seq<InterfaceDescription>
    /** The packet blocks written so far, oldest first. */
    var packets: seq<EnhancedPacket>

    /** Every mapped id and every written block names a described interface, and an id names its own link layer. */
    ghost predicate Valid()
      reads this
    {
      && defaultInterfaceId < |interfaces|
      && (forall ll :: ll in linkLayerToIfaceId ==>
            linkLayerToIfaceId[ll] < |interfaces| && interfaces[linkLayerToIfaceId[ll]].linkType == ll)
      && (forall i :: 0 <= i < |packets| ==> packets[i].interfaceId < |interfaces|)
    }

    /** The constructor: id 0 for the default link layer, then 1..N for the additional ones in order. */
    constructor (defaultLinkLayer: LinkLayerType, additionalLinkLayers: seq<LinkLayerType>)
      ensures Valid()
      ensures defaultInterfaceId == 0
      ensures linkLayerToIfaceId == InterfaceIds(defaultLinkLayer, additionalLinkLayers)
      ensures interfaces == Describe(DeclaredLinkLayers(defaultLinkLayer, additionalLinkLayers))
      ensures packets == []
    {
      var ifacesDescsList: seq<InterfaceDescription> := [];
      var ifaceId: nat := 0;
      var ids: map<LinkLayerType, nat> := map[];

      defaultInterfaceId := ifaceId;
      ids := ids[defaultLinkLayer := ifaceId];
      ifacesDescsList := ifacesDescsList + [InterfaceDescription(defaultLinkLayer, 0)];
      ifaceId := ifaceId + 1;
      assert DeclaredLinkLayers(defaultLinkLayer, additionalLinkLayers[..0]) == [defaultLinkLayer];

      for k := 0 to |additionalLinkLayers|
        invariant ifaceId == k + 1
        invariant ids == InterfaceIds(defaultLinkLayer, additionalLinkLayers[..k])
        invariant ifacesDescsList == Describe(DeclaredLinkLayers(defaultLinkLayer, additionalLinkLayers[..k]))
      {
        var additionalLinkLayer := additionalLinkLayers[k];
        DeclareNext(defaultLinkLayer, additionalLinkLayers, k);
        ids := ids[additionalLinkLayer := ifaceId];
        ifacesDescsList := ifacesDescsList + [InterfaceDescription(additionalLinkLayer, 0)];
        ifaceId := ifaceId + 1;
      }
      assert additionalLinkLayers[..|additionalLinkLayers|] == additionalLinkLayers;
      InterfaceIdsDescribe(defaultLinkLayer, additionalLinkLayers);

      linkLayerToIfaceId := ids;
      interfaces := ifacesDescsList;
      packets := [];
    }

    /** `SendImpl`: append one packet block with the comment, if any, as its only comment. */
    method SendImpl(data: seq<byte>, ifaceId: nat, ts: TimestampHelper, comment: Option<string>)
      requires Valid() && ifaceId < |interfaces|
      modifies this
      ensures Valid()
      ensures packets == old(packets) + [EnhancedPacket(ifaceId, ts, |data|, data, CommentsList(comment))]
    {
      var commentsList: seq<string> := [];
      if comment.Some? {
        commentsList := commentsList + [comment.value];
      }
      assert commentsList == CommentsList(comment);
      packets := packets + [EnhancedPacket(ifaceId, ts, |data|, data, commentsList)];
    }

    /**
     * `Send(PacketToSend)`: resolve the interface, throwing for an unknown link
     * layer before anything is written, then write one block.
     */
    method Send(pkt: PacketToSend) returns (r: Result<()>)
      requires Valid() && TimestampFits(pkt.timeFromCaptureStart)
      modifies this
      ensures Valid()
      ensures SendRecord(linkLayerToIfaceId, defaultInterfaceId, pkt).Ok? ==>
                r == Ok(()) && packets == old(packets) + [SendRecord(linkLayerToIfaceId, defaultInterfaceId, pkt).value]
      ensures SendRecord(linkLayerToIfaceId, defaultInterfaceId, pkt).Throw? ==>
                r == Throw(SendRecord(linkLayerToIfaceId, defaultInterfaceId, pkt).exception) && packets == old(packets)
    {
      var ifaceId := defaultInterfaceId;
      if pkt.linkLayer.Some? {
        if pkt.linkLayer.value !in linkLayerToIfaceId {
          return Throw(ArgumentOutOfRangeException(pkt.linkLayer.value.code));
        }
        ifaceId := linkLayerToIfaceId[pkt.linkLayer.value];
      }
      var ts: TimeSpan := 0;
      if pkt.timeFromCaptureStart.Some? {
        ts := pkt.timeFromCaptureStart.value;
      }
      MillisecondsMagnitude(ts);
      SendImpl(pkt.data, ifaceId, TimestampHelper(AbsTotalSeconds(ts), Abs(Milliseconds(ts)) * 1000), pkt.comment);
      r := Ok(());
    }

    /** `Send(data)`: on the default interface, at time zero, without a comment; it never throws. */
    method SendData(data: seq<byte>) returns (r: Result<()>)
      requires Valid()
      modifies this
      ensures Valid()
      ensures r == Ok(())
      ensures packets == old(packets) + [EnhancedPacket(defaultInterfaceId, TimestampHelper(0, 0), |data|, data, [])]
    {
      r := Send(PacketToSend(data, None, Some(0), None));
    }

    /** `Send(data, linkLayer)`: on that link layer's interface, at time zero, without a comment. */
    method SendDataOnLinkLayer(data: seq<byte>, linkLayer: LinkLayerType) returns (r: Result<()>)
      requires Valid()
      modifies this
      ensures Valid()
      ensures linkLayer in linkLayerToIfaceId ==>
                r == Ok(()) &&
                packets == old(packets) + [EnhancedPacket(linkLayerToIfaceId[linkLayer], TimestampHelper(0, 0), |data|, data, [])]
      ensures linkLayer !in linkLayerToIfaceId ==>
                r == Throw(ArgumentOutOfRangeException(linkLayer.code)) && packets == old(packets)
    {
      r := Send(PacketToSend(data, Some(linkLayer), Some(0), None));
    }
  }

  /** Ethernet as the default and Raw as the one additional link layer get ids 0 and 1. */
  lemma TwoLinkLayerIds()
    ensures InterfaceIds(Ethernet, [Raw]) == map[Ethernet := 0, Raw := 1]
  {
    AdditionalLinkLayerId(Ethernet, [Raw], 0);
    DefaultLinkLayerId(Ethernet, [Raw]);
    assert InterfaceIds(Ethernet, [Raw]).Keys == {Ethernet, Raw};
  }

  /**
   * A publisher with default link layer Ethernet and additional link layer Raw:
   * a packet without a link layer goes to interface 0, a Raw one to interface 1.
   */
  method TwoLinkLayerScenario() returns (written: seq<EnhancedPacket>)
    ensures written == [
      EnhancedPacket(0, TimestampHelper(0, 0), 2, [0xAA, 0xBB], []),
      EnhancedPacket(1, TimestampHelper(0, 0), 1, [0xCC], [])]
  {
    var publisher := new PcapngPublisher(Ethernet, [Raw]);
    TwoLinkLayerIds();
    var _ := publisher.SendData([0xAA, 0xBB]);
    var _ := publisher.SendDataOnLinkLayer([0xCC], Raw);
    written := publisher.packets;
  }
}

=== FILE: program.dfy ===
/**
 * The extcap program: the producer that binds a VMnet and forwards every
 * captured frame to the publisher as an Ethernet packet, and the registration
 * of one capture interface per VMnet 0..19.
 *
 * The frames the driver delivers, and the time each one is published at
 * (`DateTime.Now` minus the capture start), are inputs; running out of inputs
 * stands for the process being stopped from outside, the only other way the
 * source's endless loop ends.
 */
module Program {
  import opened Types
  import opened PacketPublish
  import opened Pcapng
  import opened VMNetExtcap

  /** Size of the reused capture buffer. */
  const PacketBufferSize: nat := 0x640

  /** Number of VMnet capture interfaces registered. */
  const VMnetInterfaceCount: nat := 20

  // ---------------------------------------------------------------------------
  // The capture loop

  /** What the OS reports for one `CapturePacket` call, and the elapsed time if the frame is published. */
  datatype CaptureInput = CaptureInput(wait: uint32, readOk: bool, frame: seq<byte>, elapsed: TimeSpan)

  /** The driver's answers before capturing: whether the device opens, and the handshake outcomes. */
  datatype DriverOutcome = DriverOutcome(deviceOpens: bool, handshake: HandshakeOutcome)

  /** A read never exceeds the buffer, and every publish time fits the packet timestamp. */
  predicate WellFormedInputs(inputs: seq<CaptureInput>) {
    forall i :: 0 <= i < |inputs| ==>
      |inputs[i].frame| <= PacketBufferSize && TimestampFits(Some(inputs[i].elapsed))
  }

  /** What `CapturePacket` returns for one input. */
  function InputResult(input: CaptureInput): Result<uint32>
    requires |input.frame| <= PacketBufferSize
  {
    CaptureResult(input.wait, input.readOk, |input.frame|)
  }

  /** The packet the producer publishes for a captured frame. */
  function CapturedPacket(input: CaptureInput): PacketToSend {
    PacketToSend(input.frame, Some(Ethernet), Some(input.elapsed), None)
  }

  /** How the capture loop ends. */
  datatype LoopEnd = EndOfCapture | Failed(exception: Exception) | InputsExhausted

  /** The packets the capture loop hands to the publisher, and how the loop ends. */
  datatype CaptureRun = CaptureRun(sent: seq<PacketToSend>, end: LoopEnd)

  /**
   * The capture loop, one input per `CapturePacket` call: end-of-capture stops
   * it, any other exception escapes it, a zero length is skipped, and any other
   * length is published.
   */
  function CaptureLoop(inputs: seq<CaptureInput>): (run: CaptureRun)
    requires WellFormedInputs(inputs)
    ensures forall p :: p in run.sent ==>
              p.linkLayer == Some(Ethernet) && 0 < |p.data| <= PacketBufferSize && p.comment == None &&
              p.timeFromCaptureStart.Some? && TimestampFits(p.timeFromCaptureStart)
    ensures |run.sent| <= |inputs|
    decreases |inputs|
  {
    if inputs == [] then CaptureRun([], InputsExhausted)
    else
      var result := InputResult(inputs[0]);
      if result == Throw(EndOfCaptureException) then CaptureRun([], EndOfCapture)
      else if result.Throw? then CaptureRun([], Failed(result.exception))
      else if result.value == 0 then CaptureLoop(inputs[1..])
      else
        var rest := CaptureLoop(inputs[1..]);
        CaptureRun([CapturedPacket(inputs[0])] + rest.sent, rest.end)
  }

  /** Position of the first input whose capture throws, or the number of inputs. */
  function FirstThrow(inputs: seq<CaptureInput>): (k: nat)
    requires WellFormedInputs(inputs)
    ensures k <= |inputs|
    ensures forall j :: 0 <= j < k ==> InputResult(inputs[j]).Ok?
    ensures k < |inputs| ==> InputResult(inputs[k]).Throw?
    decreases |inputs|
  {
    if inputs == [] || InputResult(inputs[0]).Throw? then 0 else 1 + FirstThrow(inputs[1..])
  }

  /** The packets of the inputs that deliver a frame, in input order. */
  function FramePackets(inputs: seq<CaptureInput>): seq<PacketToSend>
    requires WellFormedInputs(inputs)
    decreases |inputs|
  {
    if inputs == [] then []
    else
      var result := InputResult(inputs[0]);
      (if result.Ok? && result.value != 0 then [CapturedPacket(inputs[0])] else []) + FramePackets(inputs[1..])
  }

  /**
   * The capture loop publishes exactly the frames delivered before the first
   * exception, one packet each and in order; it ends cleanly on end-of-capture,
   * fails with any other exception, and otherwise runs out of inputs.
   */
  lemma {:induction false} CaptureLoopForwardsFramesBeforeFirstThrow(inputs: seq<CaptureInput>)
    requires WellFormedInputs(inputs)
    ensures CaptureLoop(inputs).sent == FramePackets(inputs[..FirstThrow(inputs)])
    ensures FirstThrow(inputs) == |inputs| ==> CaptureLoop(inputs).end == InputsExhausted
    ensures FirstThrow(inputs) < |inputs| ==>
              CaptureLoop(inputs).end ==
                if InputResult(inputs[FirstThrow(inputs)]) == Throw(EndOfCaptureException) then EndOfCapture
                else Failed(InputResult(inputs[FirstThrow(inputs)]).exception)
  {
    if inputs != [] {
      var k := FirstThrow(inputs);
      if k == 0 {
        assert inputs[..0] == [];
      } else {
        CaptureLoopForwardsFramesBeforeFirstThrow(inputs[1..]);
        assert inputs[..k][1..] == inputs[1..][..k - 1];
        assert inputs[..k][0] == inputs[0];
      }
    }
  }

  /**
   * How many inputs the loop consumes: it stops after the first capture that
   * throws and, when every `Send` throws, after the first frame it publishes.
   */
  function ConsumedInputs(inputs: seq<CaptureInput>, sendThrows: bool): (k: nat)
    requires WellFormedInputs(inputs)
    ensures k <= |inputs|
    ensures inputs != [] ==> 1 <= k
    decreases |inputs|
  {
    if inputs == [] then 0
    else if StopsLoop(inputs[0], sendThrows) then 1
    else 1 + ConsumedInputs(inputs[1..], sendThrows)
  }

  /** When publishing never fails, the loop consumes the inputs up to and including the first capture that throws. */
  lemma {:induction false} ConsumedUpToFirstThrow(inputs: seq<CaptureInput>)
    requires WellFormedInputs(inputs)
    ensures ConsumedInputs(inputs, false) == if FirstThrow(inputs) < |inputs| then FirstThrow(inputs) + 1 else |inputs|
    decreases |inputs|
  {
    if inputs != [] && InputResult(inputs[0]).Ok? {
      ConsumedUpToFirstThrow(inputs[1..]);
    }
  }

  /** Whether the loop stops at this input: its capture throws, or it delivers a frame and `Send` throws. */
  predicate StopsLoop(input: CaptureInput, sendThrows: bool)
    requires |input.frame| <= PacketBufferSize
  {
    var result := InputResult(input);
    result.Throw? || (result.value != 0 && sendThrows)
  }

  /**
   * The loop consumes the inputs up to and including the first one at which it
   * stops, or all of them when it stops at none.
   */
  lemma {:induction false} ConsumedUpToFirstStop(inputs: seq<CaptureInput>, sendThrows: bool)
    requires WellFormedInputs(inputs)
    ensures var k := ConsumedInputs(inputs, sendThrows);
            && (forall j :: 0 <= j < k - 1 ==> !StopsLoop(inputs[j], sendThrows))
            && (k < |inputs| ==> 0 < k && StopsLoop(inputs[k - 1], sendThrows))
    decreases |inputs|
  {
    if inputs != [] && !StopsLoop(inputs[0], sendThrows) {
      var rest := inputs[1..];
      ConsumedUpToFirstStop(rest, sendThrows);
      assert forall j :: 1 <= j < |inputs| ==> inputs[j] == rest[j - 1];
    }
  }

  /** One more input, seen from input `i`: either it is the last one consumed, or one more is consumed after it. */
  lemma ConsumedInputsStep(inputs: seq<CaptureInput>, i: nat, sendThrows: bool)
    requires WellFormedInputs(inputs) && i < |inputs|
    ensures ConsumedInputs(inputs[i..], sendThrows) ==
              if StopsLoop(inputs[i], sendThrows) then 1 else 1 + ConsumedInputs(inputs[i + 1..], sendThrows)
  {
    assert inputs[i..][0] == inputs[i] && inputs[i..][1..] == inputs[i + 1..];
  }

  /** The calls the captures of `inputs` issue, in order: a wait each, and a read after each signal. */
  function CaptureCallsOf(inputs: seq<CaptureInput>): seq<Win32Call>
    decreases |inputs|
  {
    if inputs == [] then []
    else CaptureCallsOf(inputs[..|inputs| - 1]) + CaptureCalls(inputs[|inputs| - 1].wait)
  }

  /** Captures issue one wait per input and only waits and reads: never a close. */
  lemma {:induction false} CaptureCallsOfShape(inputs: seq<CaptureInput>)
    ensures |CaptureCallsOf(inputs)| >= |inputs|
    ensures forall c :: c in CaptureCallsOf(inputs) ==> c.WaitForSingleObject? || c.ReadFile?
    decreases |inputs|
  {
    if inputs != [] {
      CaptureCallsOfShape(inputs[..|inputs| - 1]);
    }
  }

  /** The calls of one more consumed input. */
  lemma CaptureCallsOfStep(calls: seq<Win32Call>, inputs: seq<CaptureInput>, i: nat)
    requires i < |inputs|
    ensures CaptureCallsOf(inputs[..i + 1]) == CaptureCallsOf(inputs[..i]) + CaptureCalls(inputs[i].wait)
    ensures calls + CaptureCallsOf(inputs[..i + 1]) == calls + CaptureCallsOf(inputs[..i]) + CaptureCalls(inputs[i].wait)
  {
    assert inputs[..i + 1][..i] == inputs[..i];
  }

  /** Five timed-out waits followed by one 12-byte frame publish that one frame only. */
  lemma TimeoutsThenOneFrame(frame: seq<byte>, idle: CaptureInput, elapsed: TimeSpan)
    requires |frame| == 12 && TimestampFits(Some(elapsed))
    requires idle.wait == WAIT_TIMEOUT && |idle.frame| <= PacketBufferSize && TimestampFits(Some(idle.elapsed))
    ensures var inputs := [idle, idle, idle, idle, idle, CaptureInput(WAIT_OBJECT_0, true, frame, elapsed)];
            WellFormedInputs(inputs) &&
            CaptureLoop(inputs) == CaptureRun([PacketToSend(frame, Some(Ethernet), Some(elapsed), None)], InputsExhausted)
  {
    var last := CaptureInput(WAIT_OBJECT_0, true, frame, elapsed);
    var expected := CaptureRun([PacketToSend(frame, Some(Ethernet), Some(elapsed), None)], InputsExhausted);
    assert InputResult(idle) == Ok(0);
    assert [last][1..] == [];
    assert CaptureLoop([last]) == expected;
    assert [idle, last][1..] == [last];
    assert CaptureLoop([idle, last]) == expected;
    assert [idle, idle, last][1..] == [idle, last];
    assert CaptureLoop([idle, idle, last]) == expected;
    assert [idle, idle, idle, last][1..] == [idle, idle, last];
    assert CaptureLoop([idle, idle, idle, last]) == expected;
    assert [idle, idle, idle, idle, last][1..] == [idle, idle, idle, last];
    assert CaptureLoop([idle, idle, idle, idle, last]) == expected;
    assert [idle, idle, idle, idle, idle, last][1..] == [idle, idle, idle, idle, last];
  }

  /** One iteration of the capture loop, seen from input `i`. */
  lemma CaptureLoopStep(inputs: seq<CaptureInput>, i: nat)
    requires WellFormedInputs(inputs) && i < |inputs|
    ensures var result := InputResult(inputs[i]);
            var here, next := CaptureLoop(inputs[i..]), CaptureLoop(inputs[i + 1..]);
            && (result == Throw(EndOfCaptureException) ==> here == CaptureRun([], EndOfCapture))
            && (result.Throw? && result != Throw(EndOfCaptureException) ==> here == CaptureRun([], Failed(result.exception)))
            && (result == Ok(0) ==> here == next)
            && (result.Ok? && result.value != 0 ==> here == CaptureRun([CapturedPacket(inputs[i])] + next.sent, next.end))
  {
    assert inputs[i..][0] == inputs[i] && inputs[i..][1..] == inputs[i + 1..];
  }

  /** After the first `i` inputs the loop has sent `sent`; the rest of its run is that of the remaining inputs. */
  ghost predicate RunSoFar(inputs: seq<CaptureInput>, i: nat, sent: seq<PacketToSend>)
    requires WellFormedInputs(inputs) && i <= |inputs|
  {
    var rest := CaptureLoop(inputs[i..]);
    CaptureLoop(inputs) == CaptureRun(sent + rest.sent, rest.end)
  }

  /** How one more input moves the loop on: it ends the run, is skipped, or adds its packet. */
  lemma RunSoFarStep(inputs: seq<CaptureInput>, i: nat, sent: seq<PacketToSend>)
    requires WellFormedInputs(inputs) && i < |inputs| && RunSoFar(inputs, i, sent)
    ensures var result := InputResult(inputs[i]);
            && (result == Throw(EndOfCaptureException) ==> CaptureLoop(inputs) == CaptureRun(sent, EndOfCapture))
            && (result.Throw? && result != Throw(EndOfCaptureException) ==>
                  CaptureLoop(inputs) == CaptureRun(sent, Failed(result.exception)))
            && (result == Ok(0) ==> RunSoFar(inputs, i + 1, sent))
            && (result.Ok? && result.value != 0 ==> RunSoFar(inputs, i + 1, sent + [CapturedPacket(inputs[i])]))
  {
    CaptureLoopStep(inputs, i);
    var next := CaptureLoop(inputs[i + 1..]);
    assert sent + [] == sent;
    assert (sent + [CapturedPacket(inputs[i])]) + next.sent == sent + ([CapturedPacket(inputs[i])] + next.sent);
  }

  /** Once every input is used, the loop has ended for want of inputs. */
  lemma RunSoFarExhausted(inputs: seq<CaptureInput>, sent: seq<PacketToSend>)
    requires WellFormedInputs(inputs) && RunSoFar(inputs, |inputs|, sent)
    ensures CaptureLoop(inputs) == CaptureRun(sent, InputsExhausted)
  {
    assert inputs[|inputs|..] == [];
    assert sent + [] == sent;
  }

  /** Once a run of sends has thrown, later packets change nothing. */
  lemma {:induction false} PublishAllStopsAtFirstThrow(
    ids: map<LinkLayerType, nat>, defaultId: nat, pkts: seq<PacketToSend>, more: seq<PacketToSend>)
    requires AllTimestampsFit(pkts) && AllTimestampsFit(more)
    requires PublishAll(ids, defaultId, pkts).result.Throw?
    ensures AllTimestampsFit(pkts + more)
    ensures PublishAll(ids, defaultId, pkts + more) == PublishAll(ids, defaultId, pkts)
    decreases |more|
  {
    var all := pkts + more;
    if more != [] {
      assert all[..|all| - 1] == pkts + more[..|more| - 1];
      PublishAllStopsAtFirstThrow(ids, defaultId, pkts, more[..|more| - 1]);
    } else {
      assert all == pkts;
    }
  }

  /**
   * One `Send` after a run that has not thrown: what it writes and returns is
   * what one more packet adds to the run.
   */
  lemma PublishStep(
    ids: map<LinkLayerType, nat>, defaultId: nat, before: seq<EnhancedPacket>, sent: seq<PacketToSend>,
    pkt: PacketToSend, written: seq<EnhancedPacket>, status: Result<()>)
    requires AllTimestampsFit(sent) && TimestampFits(pkt.timeFromCaptureStart)
    requires PublishAll(ids, defaultId, sent).result == Ok(())
    requires var rec := SendRecord(ids, defaultId, pkt);
             && (rec.Ok? ==> status == Ok(()) && written == before + PublishAll(ids, defaultId, sent).packets + [rec.value])
             && (rec.Throw? ==> status == Throw(rec.exception) && written == before + PublishAll(ids, defaultId, sent).packets)
    ensures AllTimestampsFit(sent + [pkt])
    ensures PublishAll(ids, defaultId, sent + [pkt]).result == status
    ensures written == before + PublishAll(ids, defaultId, sent + [pkt]).packets
  {
    PublishAllAppend(ids, defaultId, sent, pkt);
  }

  /**
   * The loop's bookkeeping after its first `i` inputs: the run so far has
   * sent `sent`, publishing it succeeded, and the rest of the consumed inputs
   * lie after position `i`.
   */
  ghost predicate LoopProgress(
    inputs: seq<CaptureInput>, i: nat, sent: seq<PacketToSend>, ids: map<LinkLayerType, nat>, defaultId: nat)
    requires WellFormedInputs(inputs) && i <= |inputs|
  {
    && AllTimestampsFit(sent) && RunSoFar(inputs, i, sent)
    && PublishAll(ids, defaultId, sent).result == Ok(())
    && ConsumedInputs(inputs, Ethernet !in ids) == i + ConsumedInputs(inputs[i..], Ethernet !in ids)
  }

  /** The loop has ended having published `sent`, consumed `consumed` inputs, and the producer reports `r`. */
  ghost predicate LoopEndsWith(
    inputs: seq<CaptureInput>, sent: seq<PacketToSend>, ids: map<LinkLayerType, nat>, defaultId: nat,
    consumed: nat, r: ProducerOutcome)
    requires WellFormedInputs(inputs) && AllTimestampsFit(sent)
  {
    var run := CaptureLoop(inputs);
    && PublishAll(ids, defaultId, run.sent) == PublishAll(ids, defaultId, sent)
    && ProducerResult(PublishAll(ids, defaultId, run.sent).result, run.end) == r
    && ConsumedInputs(inputs, Ethernet !in ids) == consumed
  }

  /** Proof step: the loop starts with nothing sent. */
  lemma LoopStart(inputs: seq<CaptureInput>, ids: map<LinkLayerType, nat>, defaultId: nat)
    requires WellFormedInputs(inputs)
    ensures LoopProgress(inputs, 0, [], ids, defaultId)
  {
    assert inputs[0..] == inputs;
    assert [] + CaptureLoop(inputs).sent == CaptureLoop(inputs).sent;
  }

  /** Proof step: a timed-out wait is skipped. */
  lemma LoopSkips(inputs: seq<CaptureInput>, i: nat, sent: seq<PacketToSend>, ids: map<LinkLayerType, nat>, defaultId: nat)
    requires WellFormedInputs(inputs) && i < |inputs| && LoopProgress(inputs, i, sent, ids, defaultId)
    requires InputResult(inputs[i]) == Ok(0)
    ensures LoopProgress(inputs, i + 1, sent, ids, defaultId)
  {
    RunSoFarStep(inputs, i, sent);
    ConsumedInputsStep(inputs, i, Ethernet !in ids);
  }

  /** Proof step: a capture that throws ends the loop. */
  lemma LoopStopsOnCapture(
    inputs: seq<CaptureInput>, i: nat, sent: seq<PacketToSend>, ids: map<LinkLayerType, nat>, defaultId: nat)
    requires WellFormedInputs(inputs) && i < |inputs| && LoopProgress(inputs, i, sent, ids, defaultId)
    requires InputResult(inputs[i]).Throw?
    ensures LoopEndsWith(inputs, sent, ids, defaultId, i + 1,
              if InputResult(inputs[i]) == Throw(EndOfCaptureException) then Returned(Ok(()))
              else Returned(Throw(InputResult(inputs[i]).exception)))
  {
    RunSoFarStep(inputs, i, sent);
    ConsumedInputsStep(inputs, i, Ethernet !in ids);
  }

  /** Proof step: a frame is sent; a `Send` that throws ends the loop. */
  lemma LoopPublishes(
    inputs: seq<CaptureInput>, i: nat, sent: seq<PacketToSend>, ids: map<LinkLayerType, nat>, defaultId: nat,
    before: seq<EnhancedPacket>, written: seq<EnhancedPacket>, status: Result<()>)
    requires WellFormedInputs(inputs) && i < |inputs| && LoopProgress(inputs, i, sent, ids, defaultId)
    requires InputResult(inputs[i]).Ok? && InputResult(inputs[i]).value != 0
    requires var rec := SendRecord(ids, defaultId, CapturedPacket(inputs[i]));
             && (rec.Ok? ==> status == Ok(()) && written == before + PublishAll(ids, defaultId, sent).packets + [rec.value])
             && (rec.Throw? ==> status == Throw(rec.exception) && written == before + PublishAll(ids, defaultId, sent).packets)
    ensures var now := sent + [CapturedPacket(inputs[i])];
            && AllTimestampsFit(now)
            && written == before + PublishAll(ids, defaultId, now).packets
            && (status.Ok? ==> LoopProgress(inputs, i + 1, now, ids, defaultId))
            && (status.Throw? ==> LoopEndsWith(inputs, now, ids, defaultId, i + 1, Returned(status)))
  {
    var pkt := CapturedPacket(inputs[i]);
    RunSoFarStep(inputs, i, sent);
    ConsumedInputsStep(inputs, i, Ethernet !in ids);
    PublishStep(ids, defaultId, before, sent, pkt, written, status);
    if status.Throw? {
      PublishAllStopsAtFirstThrow(ids, defaultId, sent + [pkt], CaptureLoop(inputs[i + 1..]).sent);
      assert Ethernet !in ids by {
        assert ResolveInterfaceId(ids, defaultId, pkt.linkLayer).Throw?;
      }
    } else {
      assert Ethernet in ids by {
        assert ResolveInterfaceId(ids, defaultId, pkt.linkLayer).Ok?;
      }
    }
  }

  /** Proof step: every input used, the producer is still capturing. */
  lemma LoopExhausted(inputs: seq<CaptureInput>, sent: seq<PacketToSend>, ids: map<LinkLayerType, nat>, defaultId: nat)
    requires WellFormedInputs(inputs) && LoopProgress(inputs, |inputs|, sent, ids, defaultId)
    ensures LoopEndsWith(inputs, sent, ids, defaultId, |inputs|, StillCapturing)
  {
    RunSoFarExhausted(inputs, sent);
    assert inputs[|inputs|..] == [];
  }

  /**
   * How the producer ends: it returns (normally or by an exception), or it is
   * still capturing when the inputs run out, which stands for the process
   * being stopped from outside while the loop waits.
   */
  datatype ProducerOutcome = Returned(result: Result<()>) | StillCapturing

  /** How the producer ends: a publishing exception first, then the loop's own ending. */
  function ProducerResult(published: Result<()>, end: LoopEnd): (r: ProducerOutcome)
    ensures r.StillCapturing? <==> published.Ok? && end == InputsExhausted
    ensures published.Throw? ==> r == Returned(published)
    ensures published.Ok? && end == EndOfCapture ==> r == Returned(Ok(()))
    ensures published.Ok? && end.Failed? ==> r == Returned(Throw(end.exception))
  {
    if published.Throw? then Returned(published)
    else match end
      case Failed(e) => Returned(Throw(e))
      case EndOfCapture => Returned(Ok(()))
      case InputsExhausted => StillCapturing
  }

  /** The calls a session may issue once the handshake is over. */
  predicate CaptureOrDisposeCall(c: Win32Call) {
    c.WaitForSingleObject? || c.ReadFile? || c.CloseDevice? || c.CloseEvent?
  }

  /**
   * A session's call log opens the device, runs the handshake for `vmnet` up to
   * its first failure, and afterwards only captures and disposes.
   */
  predicate HandshakeThenCaptures(calls: seq<Win32Call>, vmnet: uint32, outcome: HandshakeOutcome) {
    var n := 1 + StepsRun(outcome);
    && |calls| >= n
    && calls[..n] == [CreateFile] + HandshakeSteps(vmnet)[..StepsRun(outcome)]
    && forall j :: n <= j < |calls| ==> CaptureOrDisposeCall(calls[j])
  }

  lemma HandshakeThenCapturesAppend(calls: seq<Win32Call>, extra: seq<Win32Call>, vmnet: uint32, outcome: HandshakeOutcome)
    requires HandshakeThenCaptures(calls, vmnet, outcome)
    requires forall j :: 0 <= j < |extra| ==> CaptureOrDisposeCall(extra[j])
    ensures HandshakeThenCaptures(calls + extra, vmnet, outcome)
  {
    var n := 1 + StepsRun(outcome);
    assert (calls + extra)[..n] == calls[..n];
  }

  /** Right after the handshake the log has its expected shape and the device is still open. */
  lemma HandshakeLog(vmnet: uint32, outcome: HandshakeOutcome)
    ensures var calls := [CreateFile] + HandshakeSteps(vmnet)[..StepsRun(outcome)];
            HandshakeThenCaptures(calls, vmnet, outcome) &&
            multiset(calls)[CloseDevice] == 0 && multiset(calls)[CloseEvent] == 0
  {
    var calls := [CreateFile] + HandshakeSteps(vmnet)[..StepsRun(outcome)];
    assert calls[..1 + StepsRun(outcome)] == calls;
    assert forall j :: 0 <= j < |calls| ==> calls[j] != CloseDevice && calls[j] != CloseEvent;
  }

  /** A run of captures closes neither the device nor the event. */
  lemma CapturesCloseNothing(inputs: seq<CaptureInput>)
    ensures multiset(CaptureCallsOf(inputs))[CloseDevice] == 0
    ensures multiset(CaptureCallsOf(inputs))[CloseEvent] == 0
  {
    CaptureCallsOfShape(inputs);
  }

  /** The captures of any run of inputs keep the log's shape and close nothing. */
  lemma CapturesKeepLog(calls: seq<Win32Call>, inputs: seq<CaptureInput>, vmnet: uint32, outcome: HandshakeOutcome)
    requires HandshakeThenCaptures(calls, vmnet, outcome)
    ensures HandshakeThenCaptures(calls + CaptureCallsOf(inputs), vmnet, outcome)
    ensures multiset(calls + CaptureCallsOf(inputs))[CloseDevice] == multiset(calls)[CloseDevice]
    ensures multiset(calls + CaptureCallsOf(inputs))[CloseEvent] == multiset(calls)[CloseEvent]
  {
    var extra := CaptureCallsOf(inputs);
    CaptureCallsOfShape(inputs);
    assert forall j :: 0 <= j < |extra| ==> extra[j] in extra;
    HandshakeThenCapturesAppend(calls, extra, vmnet, outcome);
    CapturesCloseNothing(inputs);
  }

  /** Disposal keeps the log's shape and closes the device once. */
  lemma DisposeKeepsLog(calls: seq<Win32Call>, event: Option<SafeHandle>, vmnet: uint32, outcome: HandshakeOutcome)
    requires HandshakeThenCaptures(calls, vmnet, outcome)
    ensures HandshakeThenCaptures(calls + DisposeCalls(event), vmnet, outcome)
    ensures multiset(calls + DisposeCalls(event))[CloseDevice] == multiset(calls)[CloseDevice] + 1
  {
    HandshakeThenCapturesAppend(calls, DisposeCalls(event), vmnet, outcome);
  }

  /**
   * The calls a producer makes on the session it opened before disposing it:
   * `CreateFile`, the handshake steps that ran, and the captures of the
   * consumed inputs when the handshake succeeded.
   */
  ghost function CapturedLog(vmnet: uint32, handshake: HandshakeOutcome, inputs: seq<CaptureInput>, sendThrows: bool)
    : seq<Win32Call>
    requires WellFormedInputs(inputs)
  {
    [CreateFile] + HandshakeSteps(vmnet)[..StepsRun(handshake)]
    + (if HandshakeResult(handshake).Ok? then CaptureCallsOf(inputs[..ConsumedInputs(inputs, sendThrows)]) else [])
  }

  /** The whole session log: the captured log, then the disposal once the producer has returned. */
  ghost function SessionLog(
    vmnet: uint32, handshake: HandshakeOutcome, inputs: seq<CaptureInput>, sendThrows: bool, returned: bool)
    : seq<Win32Call>
    requires WellFormedInputs(inputs)
  {
    CapturedLog(vmnet, handshake, inputs, sendThrows)
    + (if returned then DisposeCalls(HandshakeEvent(handshake)) else [])
  }

  /** Before disposal the log starts with the handshake and has closed neither the device nor the event. */
  lemma CapturedLogShape(vmnet: uint32, handshake: HandshakeOutcome, inputs: seq<CaptureInput>, sendThrows: bool)
    requires WellFormedInputs(inputs)
    ensures var calls := CapturedLog(vmnet, handshake, inputs, sendThrows);
            && HandshakeThenCaptures(calls, vmnet, handshake)
            && multiset(calls)[CloseDevice] == 0 && multiset(calls)[CloseEvent] == 0
  {
    var handshakeLog := [CreateFile] + HandshakeSteps(vmnet)[..StepsRun(handshake)];
    HandshakeLog(vmnet, handshake);
    if HandshakeResult(handshake).Ok? {
      CapturesKeepLog(handshakeLog, inputs[..ConsumedInputs(inputs, sendThrows)], vmnet, handshake);
    } else {
      assert handshakeLog + [] == handshakeLog;
    }
  }

  /** Every session log starts with the handshake and closes the device once if and only if the producer returned. */
  lemma SessionLogShape(
    vmnet: uint32, handshake: HandshakeOutcome, inputs: seq<CaptureInput>, sendThrows: bool, returned: bool)
    requires WellFormedInputs(inputs)
    ensures var calls := SessionLog(vmnet, handshake, inputs, sendThrows, returned);
            && HandshakeThenCaptures(calls, vmnet, handshake)
            && multiset(calls)[CloseDevice] == (if returned then 1 else 0)
  {
    var captured := CapturedLog(vmnet, handshake, inputs, sendThrows);
    CapturedLogShape(vmnet, handshake, inputs, sendThrows);
    if returned {
      DisposeKeepsLog(captured, HandshakeEvent(handshake), vmnet, handshake);
    } else {
      assert captured + [] == captured;
    }
  }

  /**
   * The event handle a producer leaves behind: the one the handshake created,
   * if any, closed by the disposal when the producer returned and it is valid.
   */
  function FinalEvent(handshake: HandshakeOutcome, returned: bool): (event: Option<SafeHandle>)
    ensures event.Some? <==> HandshakeEvent(handshake).Some?
    ensures event.Some? ==>
              event.value.isInvalid == !handshake.eventCreated &&
              (event.value.isClosed <==> returned && handshake.eventCreated)
  {
    match HandshakeEvent(handshake)
    case Some(h) => Some(if returned && !h.isInvalid then h.(isClosed := true) else h)
    case None => None
  }

  /**
   * One turn of the producer's loop: capture into the reused buffer and, when
   * a frame arrived, send it as an Ethernet packet stamped with the elapsed
   * time.
   */
  method CaptureStep(
    session: VMnetUserInterface,
    packetData: array<byte>,
    input: CaptureInput,
    publisher: PcapngPublisher)
    returns (captured: Result<uint32>, status: Result<()>)
    requires |input.frame| <= PacketBufferSize && TimestampFits(Some(input.elapsed))
    requires packetData.Length == PacketBufferSize
    requires publisher.Valid() && !session.disposed
    modifies session, packetData, publisher
    ensures publisher.Valid() && !session.disposed
    ensures session.Calls == old(session.Calls) + CaptureCalls(input.wait)
    ensures session.hVmUser == old(session.hVmUser) && session.hPacketRecievedEvent == old(session.hPacketRecievedEvent)
    ensures packetData[..] ==
              if input.wait == WAIT_OBJECT_0 && input.readOk then input.frame + old(packetData[|input.frame|..])
              else old(packetData[..])
    ensures captured == InputResult(input)
    ensures var rec := SendRecord(publisher.linkLayerToIfaceId, publisher.defaultInterfaceId, CapturedPacket(input));
            if captured.Ok? && captured.value != 0 then
              && (rec.Ok? ==> status == Ok(()) && publisher.packets == old(publisher.packets) + [rec.value])
              && (rec.Throw? ==> status == Throw(rec.exception) && publisher.packets == old(publisher.packets))
            else
              status == Ok(()) && publisher.packets == old(publisher.packets)
  {
    captured := session.CapturePacket(packetData, input.wait, input.readOk, input.frame);
    status := Ok(());
    if captured.Ok? && captured.value != 0 {
      var packetLen := captured.value;
      assert packetData[..packetLen] == input.frame;
      var pkt := PacketToSend(packetData[..packetLen], Some(Ethernet), Some(input.elapsed), None);
      assert pkt == CapturedPacket(input);
      status := publisher.Send(pkt);
    }
  }

  /**
   * The `while (true)` loop of `VMWarePacketProducer`: capture until
   * end-of-capture, skip timed-out waits, publish each frame, and let any
   * other exception out. Disposal is left to the caller.
   */
  method CaptureAndPublish(
    session: VMnetUserInterface,
    packetData: array<byte>,
    inputs: seq<CaptureInput>,
    publisher: PcapngPublisher)
    returns (r: ProducerOutcome)
    requires WellFormedInputs(inputs) && packetData.Length == PacketBufferSize
    requires publisher.Valid() && !session.disposed
    modifies session, packetData, publisher
    ensures publisher.Valid() && !session.disposed
    ensures var run := CaptureLoop(inputs);
            var published := PublishAll(publisher.linkLayerToIfaceId, publisher.defaultInterfaceId, run.sent);
            publisher.packets == old(publisher.packets) + published.packets &&
            r == ProducerResult(published.result, run.end)
    ensures session.Calls ==
              old(session.Calls) + CaptureCallsOf(inputs[..ConsumedInputs(inputs, Ethernet !in publisher.linkLayerToIfaceId)])
    ensures session.hVmUser == old(session.hVmUser) && session.hPacketRecievedEvent == old(session.hPacketRecievedEvent)
  {
    ghost var before := publisher.packets;
    ghost var calls := session.Calls;
    ghost var ids, defaultId := publisher.linkLayerToIfaceId, publisher.defaultInterfaceId;
    ghost var sent: seq<PacketToSend> := [];
    LoopStart(inputs, ids, defaultId);
    var i := 0;
    while i < |inputs|
      invariant 0 <= i <= |inputs|
      invariant publisher.Valid() && !session.disposed
      invariant LoopProgress(inputs, i, sent, ids, defaultId)
      invariant publisher.packets == before + PublishAll(ids, defaultId, sent).packets
      invariant session.Calls == calls + CaptureCallsOf(inputs[..i])
      invariant session.hVmUser == old(session.hVmUser) && session.hPacketRecievedEvent == old(session.hPacketRecievedEvent)
      decreases |inputs| - i
    {
      var input := inputs[i];
      CaptureCallsOfStep(calls, inputs, i);
      var captured, status := CaptureStep(session, packetData, input, publisher);
      assert session.Calls == calls + CaptureCallsOf(inputs[..i + 1]);
      if captured.Throw? {
        LoopStopsOnCapture(inputs, i, sent, ids, defaultId);
        if captured == Throw(EndOfCaptureException) {
          return Returned(Ok(()));
        }
        return Returned(Throw(captured.exception));
      }
      if captured.value == 0 {
        LoopSkips(inputs, i, sent, ids, defaultId);
        i := i + 1;
        continue;
      }

      LoopPublishes(inputs, i, sent, ids, defaultId, before, publisher.packets, status);
      sent := sent + [CapturedPacket(input)];
      if status.Throw? {
        return Returned(status);
      }
      i := i + 1;
    }
    LoopExhausted(inputs, sent, ids, defaultId);
    assert inputs[..i] == inputs;
    r := StillCapturing;
  }

  /**
   * The producer once the device is open: request the selected VMnet, run the
   * capture loop if the handshake succeeded, and dispose the session whenever
   * the producer returns.
   */
  method RunSession(
    session: VMnetUserInterface,
    packetData: array<byte>,
    selectedVMnet: uint32,
    handshake: HandshakeOutcome,
    inputs: seq<CaptureInput>,
    publisher: PcapngPublisher)
    returns (r: ProducerOutcome)
    requires publisher.Valid() && WellFormedInputs(inputs) && packetData.Length == PacketBufferSize
    requires !session.disposed && session.hPacketRecievedEvent == None && session.Calls == [CreateFile]
    modifies session, packetData, publisher
    ensures publisher.Valid()
    ensures HandshakeResult(handshake).Throw? ==>
              r == Returned(HandshakeResult(handshake)) && publisher.packets == old(publisher.packets)
    ensures HandshakeResult(handshake).Ok? ==>
              var run := CaptureLoop(inputs);
              var published := PublishAll(publisher.linkLayerToIfaceId, publisher.defaultInterfaceId, run.sent);
              publisher.packets == old(publisher.packets) + published.packets &&
              r == ProducerResult(published.result, run.end)
    ensures session.Calls ==
              SessionLog(selectedVMnet, handshake, inputs, Ethernet !in publisher.linkLayerToIfaceId, r.Returned?)
    ensures session.disposed <==> r.Returned?
    ensures session.hVmUser == if r.Returned? then old(session.hVmUser).(isClosed := true) else old(session.hVmUser)
    ensures session.hPacketRecievedEvent == FinalEvent(handshake, r.Returned?)
  {
    var requested := session.RequestVMnet(selectedVMnet, handshake);
    ghost var sendThrows := Ethernet !in publisher.linkLayerToIfaceId;
    ghost var handshakeLog := session.Calls;
    assert session.hPacketRecievedEvent == HandshakeEvent(handshake);
    r := Returned(requested);
    if requested.Ok? {
      r := CaptureAndPublish(session, packetData, inputs, publisher);
    }
    assert session.Calls ==
      handshakeLog + (if requested.Ok? then CaptureCallsOf(inputs[..ConsumedInputs(inputs, sendThrows)]) else []);
    ghost var captured := session.Calls;
    assert captured == CapturedLog(selectedVMnet, handshake, inputs, sendThrows);
    if r.Returned? {
      // `using var`: the session is disposed however the producer returns.
      var _ := session.Dispose();
    }
    assert session.Calls == captured + (if r.Returned? then DisposeCalls(HandshakeEvent(handshake)) else []);
  }

  /**
   * `VMWarePacketProducer`: open the session, request the selected VMnet once,
   * run the capture loop, and dispose the session (`using var`) whenever the
   * producer returns, normally or by an exception. A producer still capturing
   * when the inputs run out has neither returned nor disposed anything.
   */
  method VMWarePacketProducer(
    selectedVMnet: uint32,
    preCheck: PreCheckState,
    driver: DriverOutcome,
    inputs: seq<CaptureInput>,
    publisher: PcapngPublisher)
    returns (r: ProducerOutcome, session: VMnetUserInterface?)
    requires publisher.Valid() && WellFormedInputs(inputs)
    modifies preCheck, publisher
    ensures publisher.Valid() && preCheck.performed
    ensures !driver.deviceOpens ==>
              session == null && publisher.packets == old(publisher.packets) &&
              r == Returned(Throw(Win32Exception("Failed to open a handle to the vmnetuserif driver")))
    ensures driver.deviceOpens ==> session != null && fresh(session)
    ensures driver.deviceOpens && HandshakeResult(driver.handshake).Throw? ==>
              r == Returned(HandshakeResult(driver.handshake)) && publisher.packets == old(publisher.packets)
    ensures driver.deviceOpens && HandshakeResult(driver.handshake).Ok? ==>
              var run := CaptureLoop(inputs);
              var published := PublishAll(publisher.linkLayerToIfaceId, publisher.defaultInterfaceId, run.sent);
              publisher.packets == old(publisher.packets) + published.packets &&
              r == ProducerResult(published.result, run.end)
    ensures session != null ==>
              session.Calls ==
                SessionLog(selectedVMnet, driver.handshake, inputs, Ethernet !in publisher.linkLayerToIfaceId, r.Returned?)
    ensures session != null ==>
              (session.disposed <==> r.Returned?) &&
              multiset(session.Calls)[CloseDevice] == (if r.Returned? then 1 else 0)
    ensures session != null ==> HandshakeThenCaptures(session.Calls, selectedVMnet, driver.handshake)
    ensures session != null ==>
              session.hVmUser == SafeHandle(false, r.Returned?) &&
              session.hPacketRecievedEvent == FinalEvent(driver.handshake, r.Returned?)
  {
    var packetData := new byte[PacketBufferSize];
    var requestSize := SizeOfRequest();
    var created := NewVMnetUserInterface(preCheck, requestSize, driver.deviceOpens);
    if created.Throw? {
      return Returned(Throw(created.exception)), null;
    }
    session := created.value;
    r := RunSession(session, packetData, selectedVMnet, driver.handshake, inputs, publisher);
    SessionLogShape(selectedVMnet, driver.handshake, inputs, Ethernet !in publisher.linkLayerToIfaceId, r.Returned?);
  }

  // ---------------------------------------------------------------------------
  // Interface registration

  /** A registered capture interface: its display name, the VMnet its producer binds, its default link layer. */
  datatype CaptureInterface = CaptureInterface(displayName: string, vmnet: uint32, defaultLinkLayer: LinkLayerType)

  function DigitChar(d: nat): char
    requires d < 10
  {
    ('0' as int + d) as char
  }

  function DigitValue(c: char): nat {
    if '0' <= c <= '9' then (c as int - '0' as int) else 0
  }

  /** `string.Format("{0}", n)`: decimal digits, no leading zeros. */
  function DecimalString(n: nat): (s: string)
    ensures |s| >= 1
    ensures forall k :: 0 <= k < |s| ==> '0' <= s[k] <= '9'
    ensures s[0] == '0' <==> n == 0
    decreases n
  {
    if n < 10 then [DigitChar(n)] else DecimalString(n / 10) + [DigitChar(n % 10)]
  }

  /** The number a string of decimal digits denotes. */
  function DecimalValue(s: string): nat
    decreases |s|
  {
    if s == [] then 0 else DecimalValue(s[..|s| - 1]) * 10 + DigitValue(s[|s| - 1])
  }

  /** Formatting a number in decimal loses nothing: reading the digits back gives the number. */
  lemma {:induction false} DecimalRoundTrip(n: nat)
    ensures DecimalValue(DecimalString(n)) == n
    decreases n
  {
    var s := DecimalString(n);
    if n < 10 {
      assert s[..0] == [];
    } else {
      DecimalRoundTrip(n / 10);
      assert s[..|s| - 1] == DecimalString(n / 10);
    }
  }

  /** The display name of the interface for VMnet `id`. */
  function VMnetDisplayName(id: nat): (name: string)
    ensures |name| > 12 && name[..12] == "VMware VMnet"
    ensures forall k :: 12 <= k < |name| ==> '0' <= name[k] <= '9'
    ensures DecimalValue(name[12..]) == id
  {
    var digits := DecimalString(id);
    DecimalRoundTrip(id);
    assert ("VMware VMnet" + digits)[12..] == digits;
    "VMware VMnet" + digits
  }

  /** Distinct VMnets get distinct display names. */
  lemma VMnetDisplayNamesDistinct(i: nat, j: nat)
    requires i != j
    ensures VMnetDisplayName(i) != VMnetDisplayName(j)
  {
  }

  /** The registration loop: one Ethernet interface per VMnet 0..19, whose producer binds that VMnet. */
  method RegisterVMnetInterfaces() returns (registered: seq<CaptureInterface>)
    ensures |registered| == VMnetInterfaceCount
    ensures forall id :: 0 <= id < |registered| ==>
              registered[id] == CaptureInterface(VMnetDisplayName(id), id, Ethernet)
    ensures forall i, j :: 0 <= i < j < |registered| ==> registered[i].displayName != registered[j].displayName
  {
    registered := [];
    for id := 0 to VMnetInterfaceCount
      invariant |registered| == id
      invariant forall j :: 0 <= j < id ==> registered[j] == CaptureInterface(VMnetDisplayName(j), j, Ethernet)
    {
      registered := registered + [CaptureInterface(VMnetDisplayName(id), id, Ethernet)];
    }
    forall i, j | 0 <= i < j < |registered|
      ensures registered[i].displayName != registered[j].displayName
    {
      VMnetDisplayNamesDistinct(i, j);
    }
  }
}

=== FILE: types.dfy ===
/** Machine integers, optional values and the .NET exceptions the capture bridge throws. */
module Types {

  /** A .NET `uint`. */
  type uint32 = x: int | 0 <= x < 0x1_0000_0000

  /** A .NET `byte`. */
  type byte = x: int | 0 <= x < 0x100

  /** A .NET nullable value (`T?`) or nullable reference. */
  datatype Option<T> = None | Some(value: T) {
    function GetOr(default: T): T {
      match this
      case Some(v) => v
      case None => default
    }
  }

  /** The exceptions thrown by the core, one constructor per .NET exception type. */
  datatype Exception =
    | PreCheckFailureException(test: string)
    | Win32Exception(message: string)
    | InvalidOperationException(message: string)
    | EndOfCaptureException
    | ObjectDisposedException(objectName: string)
      /** Carries the numeric value of the link layer the publisher did not know. */
    | ArgumentOutOfRangeException(linkLayerCode: nat)

  /** A call that either returns a value or throws. `Result<()>` stands for a `void` method. */
  datatype Result<T> = Ok(value: T) | Throw(exception: Exception)
}

=== FILE: vmnet_user_interface.dfy ===
/**
 * The session with VMware's `vmnetuserif` kernel driver: the wire request that
 * selects a VMnet, the once-per-process layout check, the four-step handshake,
 * the wait-then-read capture primitive and disposal.
 *
 * Every Win32 call (CreateFile, DeviceIoControl, CreateEvent,
 * WaitForSingleObject, ReadFile, SafeHandle.Close) is replaced by an outcome
 * that the caller supplies, and the calls the session issues are recorded, in
 * order, in the ghost log `Calls`.
 */
module VMNetExtcap {
  import opened Types

  /** `VNetUser_RequestType`. */
  datatype VNetUserRequestType = Invalid | VMnet | PVN

  function RequestTypeCode(t: VNetUserRequestType): uint32 {
    match t
    case Invalid => 0
    case VMnet => 1
    case PVN => 2
  }

  /** Control codes of the three driver requests. */
  const VNET_REQUEST_IOCTL: uint32 := 0x8102_2044
  const VNET_UNK1_IOCTL: uint32 := 0x8102_2010
  const VNET_GIVE_EVENT_IOCTL: uint32 := 0x8102_202c

  /** The opaque flag word sent with VNET_UNK1_IOCTL. */
  const UNK1_FLAG: uint32 := 9

  /** The size in bytes the driver expects for a request. */
  const EXPECTED_REQUEST_SIZE: nat := 0x2c

  /** How long one capture waits for the driver's signal, in milliseconds. */
  const PACKET_WAIT_TIMEOUT_MS: nat := 33

  /** Results of WaitForSingleObject, by their Win32 values. */
  const WAIT_OBJECT_0: uint32 := 0
  const WAIT_TIMEOUT: uint32 := 0x102
  const WAIT_FAILED: uint32 := 0xFFFF_FFFF

  /** The words of a freshly constructed request, in layout order. */
  const DefaultRequestWords: seq<uint32> := [1, 0, 0xFFFF_FFFF, 0, 0, 0, 0, 0, 0, 0, 0]

  /** The words of the request that asks for VMnet `vmnetNumber`. */
  function VMnetRequestWords(vmnetNumber: uint32): seq<uint32> {
    DefaultRequestWords[1 := RequestTypeCode(VMnet)][2 := vmnetNumber]
  }

  /** Size in bytes of a sequential layout made of 32-bit words. */
  function LayoutSize(words: seq<uint32>): nat {
    4 * |words|
  }

  /**
   * `VNETUser_Request`: a sequential struct of three words followed by two
   * fixed buffers of four words each.
   */
  class VNETUserRequest {
    var version: uint32
    var requestType: VNetUserRequestType
    var vmnetId: uint32
    var pvnSrc: array<uint32>
    var pvnDst: array<uint32>

    ghost predicate Valid()
      reads this
    {
      pvnSrc.Length == 4 && pvnDst.Length == 4 && pvnSrc != pvnDst
    }

    /** The struct as the driver sees it: eleven words in declaration order. */
    function Words(): (w: seq<uint32>)
      reads this, pvnSrc, pvnDst
      requires Valid()
      ensures |w| == 11 && LayoutSize(w) == EXPECTED_REQUEST_SIZE
      ensures w[0] == version && w[1] == RequestTypeCode(requestType) && w[2] == vmnetId
      ensures w[3..7] == pvnSrc[..] && w[7..] == pvnDst[..]
    {
      [version, RequestTypeCode(requestType), vmnetId] + pvnSrc[..] + pvnDst[..]
    }

    /** The struct constructor: version 1, an invalid request, no VMnet, zeroed buffers. */
    constructor ()
      ensures Valid() && fresh(pvnSrc) && fresh(pvnDst)
      ensures version == 1 && requestType == Invalid && vmnetId == 0xFFFF_FFFF
      ensures forall i :: 0 <= i < 4 ==> pvnSrc[i] == 0 && pvnDst[i] == 0
      ensures Words() == DefaultRequestWords
    {
      version := 1;
      requestType := Invalid;
      vmnetId := 0xFFFF_FFFF;
      var src := new uint32[4];
      var dst := new uint32[4];
      for i := 0 to 4
        invariant forall j :: 0 <= j < i ==> src[j] == 0 && dst[j] == 0
      {
        src[i] := 0;
        dst[i] := 0;
      }
      pvnSrc := src;
      pvnDst := dst;
    }
  }

  /** What `Marshal.SizeOf<VNETUser_Request>()` reports for the modelled layout. */
  method SizeOfRequest() returns (size: nat)
    ensures size == EXPECTED_REQUEST_SIZE
  {
    var request := new VNETUserRequest();
    size := LayoutSize(request.Words());
  }

  /** The process-wide `PreCheckPerformed` flag. */
  class PreCheckState {
    var performed: bool

    constructor ()
      ensures !performed
    {
      performed := false;
    }
  }

  /**
   * `PreCheck`: once the flag is set it returns at once; otherwise the request
   * size must be 0x2c, and only then is the flag set.
   */
  method PreCheck(state: PreCheckState, requestSize: nat) returns (r: Result<()>)
    modifies state
    ensures old(state.performed) ==> r == Ok(()) && state.performed
    ensures !old(state.performed) && requestSize == EXPECTED_REQUEST_SIZE ==> r == Ok(()) && state.performed
    ensures !old(state.performed) && requestSize != EXPECTED_REQUEST_SIZE ==>
              r == Throw(PreCheckFailureException("VNETUser_Request size == 0x2c")) && !state.performed
  {
    if state.performed {
      return Ok(());
    }
    if requestSize != EXPECTED_REQUEST_SIZE {
      return Throw(PreCheckFailureException("VNETUser_Request size == 0x2c"));
    }
    state.performed := true;
    r := Ok(());
  }

  /** A `SafeFileHandle`/`SafeWaitHandle`: whether the OS returned a usable handle, and whether it was closed. */
  datatype SafeHandle = SafeHandle(isInvalid: bool, isClosed: bool)

  /** What is handed to the driver with a DeviceIoControl. */
  datatype IoctlInput = RequestStruct(words: seq<uint32>) | FlagWord(flag: uint32) | EventHandle

  /** One Win32 call issued by the session. */
  datatype Win32Call =
    | CreateFile
    | DeviceIoControl(code: uint32, input: IoctlInput)
    | CreateEvent
    | WaitForSingleObject(timeoutMs: nat)
    | ReadFile
    | CloseDevice
    | CloseEvent

  /** The outcomes of the four handshake steps, as the OS would report them. */
  datatype HandshakeOutcome = HandshakeOutcome(
    requestAccepted: bool,
    flagAccepted: bool,
    eventCreated: bool,
    eventAccepted: bool)

  /** The four handshake calls, in the order `RequestVMnet` issues them. */
  function HandshakeSteps(vmnetNumber: uint32): (steps: seq<Win32Call>)
    ensures |steps| == 4
    ensures steps[0].DeviceIoControl? && steps[0].code == VNET_REQUEST_IOCTL && steps[0].input.RequestStruct?
    ensures var w := steps[0].input.words;
            && LayoutSize(w) == EXPECTED_REQUEST_SIZE
            && w[0] == 1 && w[1] == RequestTypeCode(VMnet) && w[2] == vmnetNumber
            && forall i :: 3 <= i < |w| ==> w[i] == 0
    ensures steps[1] == DeviceIoControl(VNET_UNK1_IOCTL, FlagWord(9))
    ensures steps[2] == CreateEvent && steps[3] == DeviceIoControl(VNET_GIVE_EVENT_IOCTL, EventHandle)
  {
    [ DeviceIoControl(VNET_REQUEST_IOCTL, RequestStruct(VMnetRequestWords(vmnetNumber))),
      DeviceIoControl(VNET_UNK1_IOCTL, FlagWord(UNK1_FLAG)),
      CreateEvent,
      DeviceIoControl(VNET_GIVE_EVENT_IOCTL, EventHandle) ]
  }

  /** Whether handshake step `k` (0-based) succeeds under outcome `o`. */
  predicate StepSucceeds(o: HandshakeOutcome, k: nat)
    requires k < 4
  {
    [o.requestAccepted, o.flagAccepted, o.eventCreated, o.eventAccepted][k]
  }

  /** The message of the Win32Exception thrown when step `k` fails. */
  function StepFailureMessage(k: nat): string
    requires k < 4
  {
    [ "Couldn't request VNET from vmnetuserif driver",
      "UNK1 ioctl failed",
      "Failed to create packet recieve event? How'd that happen.",
      "Could not give IOCTL to vmnetuserif" ][k]
  }

  /** How many handshake steps run: up to and including the first one that fails. */
  function StepsRun(o: HandshakeOutcome): (n: nat)
    ensures 1 <= n <= 4
    ensures forall k :: 0 <= k < n - 1 ==> StepSucceeds(o, k)
    ensures n < 4 ==> !StepSucceeds(o, n - 1)
  {
    if !o.requestAccepted then 1
    else if !o.flagAccepted then 2
    else if !o.eventCreated then 3
    else 4
  }

  /** The result of `RequestVMnet`: the failure of the first failing step, if any. */
  function HandshakeResult(o: HandshakeOutcome): (r: Result<()>)
    ensures r.Ok? <==> forall k :: 0 <= k < 4 ==> StepSucceeds(o, k)
    ensures r.Throw? ==> r.exception == Win32Exception(StepFailureMessage(StepsRun(o) - 1))
  {
    var n := StepsRun(o);
    if StepSucceeds(o, n - 1) then Ok(()) else Throw(Win32Exception(StepFailureMessage(n - 1)))
  }

  /**
   * The event handle a fresh session holds after the handshake: none unless
   * CreateEvent was issued, and then an open handle that is invalid exactly
   * when the event could not be created.
   */
  function HandshakeEvent(o: HandshakeOutcome): (event: Option<SafeHandle>)
    ensures event.Some? <==> StepsRun(o) >= 3
    ensures event.Some? ==> !event.value.isClosed && (event.value.isInvalid <==> !o.eventCreated)
  {
    if StepsRun(o) >= 3 then Some(SafeHandle(!o.eventCreated, false)) else None
  }

  /** Step `k` of the handshake is issued exactly when every earlier step succeeded. */
  lemma HandshakeStopsAtFirstFailure(o: HandshakeOutcome, k: nat)
    requires k < 4
    ensures k < StepsRun(o) <==> forall j :: 0 <= j < k ==> StepSucceeds(o, j)
  {
    var n := StepsRun(o);
    if k >= n {
      assert !StepSucceeds(o, n - 1);
    }
  }

  /**
   * What `CapturePacket` returns, given the wait result, whether ReadFile
   * succeeded and the number of bytes it read.
   */
  function CaptureResult(wait: uint32, readOk: bool, packetSize: uint32): (r: Result<uint32>)
    ensures r == Ok(0) <==> wait == WAIT_TIMEOUT
    ensures r.Ok? && r.value != 0 <==> wait == WAIT_OBJECT_0 && readOk && packetSize != 0
    ensures r.Ok? && r.value != 0 ==> r.value == packetSize
    ensures r == Throw(EndOfCaptureException) <==> wait == WAIT_OBJECT_0 && readOk && packetSize == 0
    ensures r.Throw? && r.exception.Win32Exception? <==> wait == WAIT_OBJECT_0 && !readOk
    ensures r.Throw? && r.exception.InvalidOperationException? <==> wait != WAIT_TIMEOUT && wait != WAIT_OBJECT_0
  {
    if wait == WAIT_TIMEOUT then Ok(0)
    else if wait == WAIT_FAILED then Throw(InvalidOperationException("End of packet capture?"))
    else if wait == WAIT_OBJECT_0 then
      if !readOk then Throw(Win32Exception("Could not read captured packet"))
      else if packetSize == 0 then Throw(EndOfCaptureException)
      else Ok(packetSize)
    else Throw(InvalidOperationException("How did you get here?"))
  }

  /** The calls one `CapturePacket` issues: the wait, and a read only after a signal. */
  function CaptureCalls(wait: uint32): (calls: seq<Win32Call>)
    ensures 1 <= |calls| <= 2 && calls[0] == WaitForSingleObject(PACKET_WAIT_TIMEOUT_MS)
    ensures ReadFile in calls <==> wait == WAIT_OBJECT_0
    ensures CloseDevice !in calls && CloseEvent !in calls
  {
    [WaitForSingleObject(PACKET_WAIT_TIMEOUT_MS)] + (if wait == WAIT_OBJECT_0 then [ReadFile] else [])
  }

  /** The calls `Dispose` issues: the device is always closed, the event only if it exists and is valid. */
  function DisposeCalls(event: Option<SafeHandle>): (calls: seq<Win32Call>)
    ensures 1 <= |calls| && calls[0] == CloseDevice && multiset(calls)[CloseDevice] == 1
    ensures CloseEvent in calls <==> event.Some? && !event.value.isInvalid
  {
    [CloseDevice] + (if event.Some? && !event.value.isInvalid then [CloseEvent] else [])
  }

  /** `VMnetUserInterface`: the "safe" wrapper around the driver session. */
  class VMnetUserInterface {
    var disposed: bool
    var hVmUser: SafeHandle
    var hPacketRecievedEvent: Option<SafeHandle>
    /** Every Win32 call this session has issued, oldest first. */
    ghost var Calls: seq<Win32Call>

    /** Builds the object once the device handle has been opened. */
    constructor Opened(device: SafeHandle)
      ensures !disposed && hVmUser == device && hPacketRecievedEvent == None
      ensures Calls == [CreateFile]
    {
      disposed := false;
      hVmUser := device;
      hPacketRecievedEvent := None;
      Calls := [CreateFile];
    }

    /**
     * `RequestVMnet`: request the VMnet, send the flag word, create the event and
     * give it to the driver, stopping at the first step that fails.
     */
    method RequestVMnet(vmnetNumber: uint32, outcome: HandshakeOutcome) returns (r: Result<()>)
      modifies this
      ensures r == HandshakeResult(outcome)
      ensures Calls == old(Calls) + HandshakeSteps(vmnetNumber)[..StepsRun(outcome)]
      ensures disposed == old(disposed) && hVmUser == old(hVmUser)
      ensures hPacketRecievedEvent ==
                if StepsRun(outcome) >= 3 then Some(SafeHandle(!outcome.eventCreated, false))
                else old(hPacketRecievedEvent)
    {
      var request := new VNETUserRequest();
      request.requestType := VMnet;
      request.vmnetId := vmnetNumber;
      assert request.Words() == VMnetRequestWords(vmnetNumber);
      ghost var steps := HandshakeSteps(vmnetNumber);

      Calls := Calls + [DeviceIoControl(VNET_REQUEST_IOCTL, RequestStruct(request.Words()))];
      if !outcome.requestAccepted {
        return Throw(Win32Exception("Couldn't request VNET from vmnetuserif driver"));
      }

      Calls := Calls + [DeviceIoControl(VNET_UNK1_IOCTL, FlagWord(UNK1_FLAG))];
      if !outcome.flagAccepted {
        assert steps[..2] == steps[..1] + [steps[1]];
        return Throw(Win32Exception("UNK1 ioctl failed"));
      }

      Calls := Calls + [CreateEvent];
      hPacketRecievedEvent := Some(SafeHandle(!outcome.eventCreated, false));
      if hPacketRecievedEvent.value.isInvalid {
        assert steps[..3] == steps[..1] + [steps[1], steps[2]];
        return Throw(Win32Exception("Failed to create packet recieve event? How'd that happen."));
      }

      Calls := Calls + [DeviceIoControl(VNET_GIVE_EVENT_IOCTL, EventHandle)];
      assert steps[..4] == steps;
      if !outcome.eventAccepted {
        return Throw(Win32Exception("Could not give IOCTL to vmnetuserif"));
      }
      r := Ok(());
    }

    /**
     * `CapturePacket`: wait up to 33 ms for the driver's signal; after a signal
     * ReadFile places `frame` at the start of `buffer`.
     */
    method CapturePacket(buffer: array<byte>, wait: uint32, readOk: bool, frame: seq<byte>)
      returns (r: Result<uint32>)
      requires |frame| <= buffer.Length && |frame| < 0x1_0000_0000
      modifies this, buffer
      ensures r == CaptureResult(wait, readOk, |frame|)
      ensures Calls == old(Calls) + CaptureCalls(wait)
      ensures disposed == old(disposed) && hVmUser == old(hVmUser)
      ensures hPacketRecievedEvent == old(hPacketRecievedEvent)
      ensures buffer[..] == if wait == WAIT_OBJECT_0 && readOk then frame + old(buffer[|frame|..]) else old(buffer[..])
    {
      Calls := Calls + [WaitForSingleObject(PACKET_WAIT_TIMEOUT_MS)];
      if wait == WAIT_TIMEOUT {
        return Ok(0);
      } else if wait == WAIT_FAILED {
        return Throw(InvalidOperationException("End of packet capture?"));
      } else if wait == WAIT_OBJECT_0 {
        Calls := Calls + [ReadFile];
        if !readOk {
          return Throw(Win32Exception("Could not read captured packet"));
        }
        forall i | 0 <= i < |frame| {
          buffer[i] := frame[i];
        }
        assert buffer[..] == frame + old(buffer[|frame|..]);
        var packetSize: uint32 := |frame|;
        if packetSize == 0 {
          return Throw(EndOfCaptureException);
        }
        return Ok(packetSize);
      }
      r := Throw(InvalidOperationException("How did you get here?"));
    }

    /**
     * `Dispose`: a second call throws ObjectDisposedException and changes
     * nothing; the first closes the device handle, closes the event handle if
     * there is a valid one, and marks the session disposed.
     */
    method Dispose() returns (r: Result<()>)
      modifies this
      ensures old(disposed) ==> r == Throw(ObjectDisposedException("Dispose")) && unchanged(this)
      ensures !old(disposed) ==> r == Ok(()) && disposed
      ensures !old(disposed) ==> hVmUser == old(hVmUser).(isClosed := true)
      ensures !old(disposed) ==>
                hPacketRecievedEvent ==
                  (match old(hPacketRecievedEvent)
                   case Some(h) => if h.isInvalid then Some(h) else Some(h.(isClosed := true))
                   case None => None)
      ensures !old(disposed) ==> Calls == old(Calls) + DisposeCalls(old(hPacketRecievedEvent))
    {
      if disposed {
        return Throw(ObjectDisposedException("Dispose"));
      }
      hVmUser := hVmUser.(isClosed := true);
      Calls := Calls + [CloseDevice];
      if hPacketRecievedEvent != None {
        if !hPacketRecievedEvent.value.isInvalid {
          hPacketRecievedEvent := Some(hPacketRecievedEvent.value.(isClosed := true));
          Calls := Calls + [CloseEvent];
        }
      }
      disposed := true;
      r := Ok(());
    }
  }

  /**
   * The `VMnetUserInterface` constructor: the pre-check runs first, and a failed
   * pre-check leaves no session (no handle is opened); otherwise CreateFile
   * opens the device and an invalid handle throws Win32Exception.
   */
  method NewVMnetUserInterface(preCheck: PreCheckState, requestSize: nat, deviceOpens: bool)
    returns (r: Result<VMnetUserInterface>)
    modifies preCheck
    ensures !old(preCheck.performed) && requestSize != EXPECTED_REQUEST_SIZE ==>
              r == Throw(PreCheckFailureException("VNETUser_Request size == 0x2c")) && !preCheck.performed
    ensures old(preCheck.performed) || requestSize == EXPECTED_REQUEST_SIZE ==>
              preCheck.performed &&
              (r.Ok? <==> deviceOpens) &&
              (!deviceOpens ==> r == Throw(Win32Exception("Failed to open a handle to the vmnetuserif driver")))
    ensures r.Ok? ==>
              fresh(r.value) && !r.value.disposed && r.value.hPacketRecievedEvent == None &&
              r.value.hVmUser == SafeHandle(false, false) && r.value.Calls == [CreateFile]
  {
    var checked := PreCheck(preCheck, requestSize);
    if checked.Throw? {
      return Throw(checked.exception);
    }
    var hVmUser := SafeHandle(!deviceOpens, false);
    if hVmUser.isInvalid {
      return Throw(Win32Exception("Failed to open a handle to the vmnetuserif driver"));
    }
    var session := new VMnetUserInterface.Opened(hVmUser);
    r := Ok(session);
  }
}
